=== FILE: README.md ===
# GetSmartJS middleware, modelled in Dafny

GetSmartJS is an Express middleware that serves JavaScript. For a `GET` whose
URL ends in `.js`, it looks for a source file in this order:

1. the file `<src><url>`;
2. failing that, the CoffeeScript file `<src><stem>.coffee`;
3. failing that, the directory `<src><stem>`.

When step 3 finds a directory, the middleware walks it and concatenates the
files it finds into one bundle. The walk scans each directory from its last
entry to its first and stops at the first name that starts with `.`, so entries
listed before a hidden one are never seen. Only `.js` and `.coffee` files add
text; any other file adds nothing. The files are sorted by path first. Each
`.js` member adds its content followed by `;` and a blank line; each `.coffee`
member is compiled on its own, together with that separator. A single
`.coffee` file found in step 2 is compiled whole. The output is minified
unless the URL ends in `min.js` or compression is off.

The middleware keeps a module-level cache keyed by request URL. For a single
file it stores the file's mtime and the output it sent. For a bundle it stores
only the value `true`.

The model treats one request as a pure function:

    Handler.Handle(fs, cache, options, transforms, request) = Step(outcome, cache')

- `fs` is a map from paths to files and directories.
- The cache holds either the bare value `true` that a bundle stores (`Marker`)
  or a record with an optional `mtime`, a `coffee` flag and optional `data`.
- The outcome is one of:
  - `next()` was called (`Next`);
  - a 200 response with the JavaScript content type and a possibly undefined
    body (`Respond`);
  - an exception from a read that sits outside any `try` (`Throw`).
- The CoffeeScript compiler and the UglifyJS chain are passed in as string
  functions.

Modules follow the structure of `getsmart.js`:

| file | module | models |
|---|---|---|
| `strings.dfy` | `Strings` | `substr`, `split`/`join`, the query strip and the `.js` → `.coffee` rename |
| `sorting.dfy` | `Sorting` | JavaScript's string order and `_.sortBy(list, identity)` |
| `disk.dfy` | `Disk` | `statSync`/`readFileSync`/`fileExists` and the recursive walk `getFileList` |
| `walk.dfy` | `Walk` | what that walk depends on: hidden names, listing order |
| `cache.dfy` | `Cache` | cache entries and the property writes on them |
| `handler.dfy` | `Handler` | the middleware closure |
| `properties.dfy` | `Properties` | what one request, or two in a row, does |
| `makedir.dfy` | `MakeDir` | `makeDirectory` |
| `scenarios.dfy` | `Scenarios` | worked examples on a concrete tree |

Some behaviour of the code as written is modelled and proved here:

- A bundle is stored as the value `true`. The code is not in strict mode, so
  writing `.data` or `.mtime` on that value does nothing.
- As a result, in production every request after the first for a bundle URL
  is answered with an undefined body (`Properties.ProductionBundleLosesData`).
- The bundle's staleness loop looks up `cache[file]` under each member's own
  path and compares it loosely (`!=`) with that member's current mtime. A
  member path can be a cache key too (with `src` equal to `/s`, the URL
  `/s/app/a.js` is stored under `/s/app/a.js`). Every cached value, though,
  is `true` or an object, and a real mtime string never loosely equals
  either (`PlausibleMtimes`; the model's `Handler.LooselyEqual` reduces this
  to the strings `"1"` and `"[object Object]"`), so the loop always reports a change (`Properties.MembersAlwaysChanged`). A
  non-empty bundle is therefore re-read and rebuilt on every development
  request (`Properties.DirectoryBundled`).
- A caching design would skip re-reading bundle members whose modification
  time did not change. The model follows the code, which does not skip them.
- Line 108 compares an mtime string with the cached value using `!=`. That
  cached value is `true` or an object, never a string. The comparison is
  modelled as JavaScript's loose equality (`Handler.LooselyEqual`).
- The `coffee` flag of an entry is never cleared. A URL once served from
  `.coffee` keeps reading `<stem>.coffee` even after a `<src><url>` file
  appears. In development, when that `<src><url>` has a new mtime and the
  `.coffee` file is gone, the request throws
  (`Properties.StickyCoffeeFlagReadsCoffee`). With neither file nor the
  directory present, the request is passed on as usual.
- A bundle marker ignores the flag. When a bundle's directory is replaced by
  a `.coffee` file, the next request in development throws
  (`Properties.MarkerThenCoffeeThrows`); production answers from the marker
  before it looks at the disk.
- `makeDirectory` is defined but never called in `getsmart.js`. Its model
  returns the list of directories it stats, each marked as already existing
  or created (`MakeDir.MakeDirectory`).

## Model

| member | source | states |
|---|---|---|
| Strings.Substr | getsmart.js:43 | `s.substr(start)` is a suffix of `s`: for a negative start, the last `-start` characters, clamped to the whole string; for an in-range start, the tail from `start`; past the end, the empty string |
| Strings.SubstrSuffixTest | getsmart.js:141 | The `substr(-n) == t` and `substr(length - n) == t` tests used at lines 43, 141, 144 and 166 both hold exactly when the string ends with `t` |
| Strings.BeforeQuery | getsmart.js:35 | `url.split('?')[0]` is a prefix of the URL with no `?`, and when it is shorter than the URL the next character is the first `?` |
| Strings.NoQuery | getsmart.js:35 | The URL is kept whole if and only if it contains no `?` |
| Strings.JoinSplit | getsmart.js:241 | Joining the pieces of `split('/')` with `/` gives back the original path |
| Strings.SplitJoin | getsmart.js:261 | Splitting a `/`-join of slash-free segments gives back exactly those segments, which is the rest of the path the recursive call receives |
| Strings.CoffeeUrl | getsmart.js:71 | `replace(/\.js$/, '.coffee')` turns a URL ending in `.js` into one ending in `.coffee` with the same stem, and leaves any other URL unchanged |
| Sorting.SortBy | getsmart.js:99 | `_.sortBy(list, identity)` returns a permutation of the list (same multiset) that is ordered under JavaScript string comparison |
| Sorting.SortedUnique | getsmart.js:99 | Two sorted lists with the same multiset of strings are equal, so the sorted member list is fully determined by which files are listed |
| Sorting.SortIgnoresOrder | getsmart.js:99 | Sorting two permutations of one list gives the same result |
| Sorting.LexLeTransitive | getsmart.js:99 | The string order the sort uses is transitive; `LexLeTotal` and `LexLeAntisymmetric` show it is also total and antisymmetric |
| Disk.GetFileList | getsmart.js:196-225 | Every path the walk of a directory returns names an existing non-directory strictly under that directory (`<path>/…`) |
| Disk.Collect | getsmart.js:202-222 | Each loop over the listed names collects only non-directories under the directory being walked |
| Disk.Visit | getsmart.js:208-221 | Every path one entry contributes is an existing non-directory under the parent directory |
| Walk.HiddenCutsOff | getsmart.js:202-206 | The loop runs from the last name to the first and breaks at the first hidden name, so names listed before a hidden name are never looked at |
| Walk.CollectAppend | getsmart.js:202-217 | With no hidden name among the later entries, later entries' files come first in the result |
| Walk.SkipsUnstatable | getsmart.js:210-221 | An entry whose stat throws is skipped, as if it were not listed |
| Walk.ListsVisibleFile | getsmart.js:211-214 | A file entry of a directory is reported when no hidden name follows it in the listing |
| Walk.ListsSubdirectory | getsmart.js:216-217 | Everything the walk of a subdirectory reports is also reported for its parent, when no hidden name follows it |
| Walk.LastEntry | getsmart.js:202-221 | One loop pass for the last name still to visit: a hidden name ends the walk with nothing; otherwise the name adds nothing when it cannot be stat'ed, itself exactly once when it is a file, or the subdirectory's walk when it is a directory, ahead of what the earlier names add |
| Walk.FlatListing | getsmart.js:202-222 | A directory listing only visible files is reported one path per name, each exactly once, in reverse listing order |
| Walk.CollectPermutation | getsmart.js:202-222 | Without hidden names, two listings that are permutations of each other collect the same multiset of files |
| Walk.ListingOrderIrrelevant | getsmart.js:196-225 | Two trees that differ only in the order directories list their (non-hidden) entries give walks with the same multiset of files |
| Cache.Touch | getsmart.js:81-83 | Line 81 (and 67), which keeps an existing entry or starts an empty object, then the mtime and `coffee` writes: a marker stays a marker; otherwise the record holds the new mtime, keeps its data, and has `coffee` set iff it was already set or the `.coffee` file was used |
| Cache.WithData | getsmart.js:173 | Storing `data` sets it on a record and keeps the mtime and flag; on the marker it is lost |
| Handler.Accepts | getsmart.js:40-47 | A request gets past the filter only if its method (`originalMethod`, else `method`) is `GET` and its URL before `?` ends in `.js` |
| Handler.ServeCached | getsmart.js:268-271 | Serving from the cache sends 200 with the JavaScript type and the entry's `data`, undefined for a marker |
| Handler.MembersChanged | getsmart.js:102-117 | The staleness loop reports "unchanged" exactly when every member is cached and its mtime compares loosely equal to the cached value; it ends in the `catch` only when a cached member cannot be stat'ed |
| Handler.Piece | getsmart.js:141-146 | A readable `.js` member contributes its content followed by `;` and a blank line; a readable `.coffee` member contributes the compiled form of its content followed by `;` and a blank line; any other file contributes nothing; a read that fails names that member |
| Handler.Concat | getsmart.js:137-147 | Assembly succeeds exactly when every member's piece succeeds; otherwise the error is the first failing member, and every member before it succeeded |
| Handler.ConcatIsText | getsmart.js:137-147 | A successful assembly is exactly the members' pieces joined in list order (`Text`, built from `Piece` one member at a time) |
| Handler.ConcatAppend | getsmart.js:137-147 | When two runs of members assemble one after the other, each run assembles on its own and the bundle is the first run's text followed by the second's |
| Handler.TextAppend | getsmart.js:137-147 | The joined pieces of two runs of members are the first run's followed by the second's |
| Handler.Minifies | getsmart.js:166 | The output is minified if and only if compression is on and the URL does not end in `min.js` |
| Handler.Emit | getsmart.js:161-177 | The response is 200 with the JavaScript type; the stored `data` of a record equals the body sent; the entry's mtime and flag are kept; other entries are untouched; a marker leaves the cache as it was |
| Handler.Revalidate | getsmart.js:59-68 | A stored mtime equal to the file's current one serves the cache unchanged; otherwise the entry gets the new mtime, the flag is set iff it was set before or `.coffee` was used, a marker stays a marker, and the request is never passed on |
| Handler.Bundle | getsmart.js:85-131 | Passing on, or throwing during assembly, leaves the cache unchanged; a response stores the bare marker for the URL and always has a body |
| Handler.Handle | getsmart.js:32-178 | A request the filter rejects is passed on untouched; passing on never changes the cache; every response is 200 with the JavaScript type; only the requested URL's entry can be added or changed |
| Properties.NonScriptRequestsPassThrough | getsmart.js:42-47 | A non-`GET`, or a URL whose part before `?` does not end in `.js`, calls `next()` and leaves the cache alone |
| Properties.QueryStringIgnored | getsmart.js:35 | Appending `?query` to a URL without `?` changes neither the response nor the cache |
| Properties.ProductionServesFromCache | getsmart.js:49-54 | In production, a URL with any cache entry is answered from it whatever the filesystem holds; a marker gives an undefined body |
| Properties.LiteralFileWins | getsmart.js:56-69 | An uncached URL whose `<src><url>` is a file is answered with its content (minified unless exempt) and recorded with its mtime, no `coffee` flag, and the data sent |
| Properties.CoffeeFileSecond | getsmart.js:70-84 | With no `<src><url>`, an uncached URL whose `.coffee` file exists is answered with its compiled content and recorded with the `coffee` flag |
| Properties.NothingToServe | getsmart.js:85-96 | With neither file present and `<src><stem>` missing or not a directory, the request is passed on and the cache is unchanged |
| Properties.MembersAlwaysChanged | getsmart.js:105-116 | Under plausible mtimes (never `"1"` or `"[object Object]"`), the staleness loop reports a change exactly when the bundle has a member |
| Properties.UnreadableMemberFails | getsmart.js:141-146 | A `.js` or `.coffee` member that cannot be read makes its piece fail, naming that member |
| Properties.ListedMembersRead | getsmart.js:137-147 | Every member the walk lists is a readable file, so assembling a bundle never throws |
| Properties.BundleEmits | getsmart.js:98-151 | For a directory with plausible mtimes, assembly never fails; an empty bundle is passed on with the cache unchanged, and a non-empty one goes to the output step with the marker stored for the URL |
| Properties.BundleOfDirectory | getsmart.js:98-151 | For a directory, an empty bundle is passed on with the cache unchanged; a non-empty one is answered with the sorted members' pieces joined in order (each `.js` member's content plus `;` and a blank line, each `.coffee` member compiled likewise), minified unless exempt, and the marker is stored |
| Properties.DirectoryBundled | getsmart.js:85-151 | The same, for a whole request whose URL resolves to neither file |
| Properties.RepeatAfterAnswer | getsmart.js:49-151 | After a request answered with a bundle, asking again against the same filesystem gives, in development, the same answer and cache, and in production a 200 with an undefined body and the cache unchanged |
| Properties.UnchangedFileServedFromCache | getsmart.js:59-64 | A resolved file whose mtime equals the stored one is answered with the stored data, and the cache is unchanged |
| Properties.ChangedFileReread | getsmart.js:66-68 | A literal file whose mtime differs from the stored one is read again; the entry gets the new mtime and data |
| Properties.CoffeeFlagNeverCleared | getsmart.js:81-83 | After any request, an entry that had the `coffee` flag still has it, unless it became the marker |
| Properties.StickyCoffeeFlagReadsCoffee | getsmart.js:153-155 | A flagged URL whose `.js` file changed reads the `.coffee` file: it throws, with the new mtime recorded, when that file is gone, and otherwise serves it compiled |
| Properties.MarkerThenCoffeeThrows | getsmart.js:150-157 | A marker URL that now resolves to a `.coffee` file reads `<src><url>`, which is missing, so it throws with the cache unchanged |
| Properties.DevelopmentRepeatIsStable | getsmart.js:56-132 | In development, repeating an answered request against the same filesystem gives the same answer and the same cache |
| Properties.ProductionBundleLosesData | getsmart.js:150 | In production, the first request for a bundle URL is answered with a body, and every later one with an undefined body, whatever the filesystem holds |
| Properties.HandleIgnoresListingOrder | getsmart.js:99 | With no hidden entries, the response and the cache do not depend on the order directories list their entries |
| MakeDir.TrimSlash | getsmart.js:237 | Exactly one trailing `/` is removed, and only when there is one |
| MakeDir.Peel | getsmart.js:237-244 | The first directory stat'ed is a prefix of `root + path + "/"`, and the rest passed to the recursion is shorter than the path |
| MakeDir.MakeDirectory | getsmart.js:232-262 | At least one directory is probed; a directory is created iff it does not exist; each is a `/`-terminated prefix of `root + path + "/"`; the first lies below `root`; each strictly extends the previous one |
| MakeDir.AncestorsInOrder | getsmart.js:232-262 | For a path of non-empty segments, the `i`-th directory probed is `root` plus the first `i + 1` segments plus `/`, one per segment |
| Scenarios.AppFiles | getsmart.js:196-225 | The walk of `src/app` listing `b.js, a.js` returns `src/app/a.js, src/app/b.js` |
| Scenarios.AppSorted | getsmart.js:99 | Sorting those two paths leaves `a.js` first |
| Scenarios.AppBundle | getsmart.js:136-151 | `GET /app.js` without compression, in development or production, answers `"var a=1;;\n\nvar b=2;;\n\n"` and caches the marker for `/app.js` |
| Scenarios.AppRepeat | getsmart.js:49-54 | A second `GET /app.js` against the same tree repeats the answer in development, and in production is answered from the marker with an undefined body |
| Scenarios.MinifyChoices | getsmart.js:166 | With compression on, `/app.js` is minified and `/lib.min.js` is not; with it off, nothing is minified |

## Left out

- Options: the factory merges options into shared defaults with `_.extend`,
  which changes the defaults themselves (line 25). The defaults are read from
  `NODE_ENV` (line 15). Neither is modelled. The options are a parameter, and
  the throw on a missing `src` (line 28) appears only as the requirement
  `ValidOptions` that `src` is non-empty.
- CoffeeScript and UglifyJS are total string functions here. Their
  exceptions are not modelled: a syntax error at lines 145, 162 or 167–170
  would reach the host.
- Console output (`console.log` at lines 93, 128, 220 and 256) is not
  modelled.
- `res.writeHead`/`res.end` are not modelled directly. `Respond` records
  exactly what they are given.
- Concurrent requests are not modelled: each request runs to completion
  against one cache.
- Handler.LooselyEqual: a cached `true` equals only the mtime string `"1"`.
  JavaScript would also accept other spellings of the number 1, such as
  `" 1"` or `"1.0"`. `Date.prototype.toString` never produces those.
- Sorting.LexLe compares characters as Unicode scalar values. JavaScript
  compares UTF-16 code units, so the two orders differ for characters outside
  the Basic Multilingual Plane.
- Disk: a directory node can always be listed. A `readdirSync` that throws on
  a stat-able directory is not modelled: inside the walk it would be caught
  and logged, and at the top level it would pass the request on.
- MakeDir.MakeDirectory lists the probes and creations in order. It does not
  return an updated filesystem, and a failing `mkdirSync` is treated like a
  successful one, because the source only logs that failure. `makeDirectory`
  is not called anywhere in the file.
- Disk: a path is looked up under the exact string handed to `statSync` or
  `readFileSync`. `//`, a trailing `/`, `.` and `..` are not folded, so a tree
  must hold every spelling the code uses: `/`-terminated keys for the
  directories `makeDirectory` stats, and `public//app.js` when `src` is
  `public/` and the URL is `/app.js`.
- Symbolic links, permissions and file encodings are not modelled. Reads
  return the stored string.

=== FILE: cache.dfy ===
/** The module-level `cache` object: one value per key, where a key is a request
    URL. A bundle stores the bare value `true` (line 150); a single file stores an
    object whose `mtime`, `coffee` and `data` properties may each still be
    undefined. The file has no "use strict", so writing a property on `true` does
    nothing, and reading one gives undefined. */
module Cache {
  import opened Optional

  datatype Entry = Marker | Record(mtime: Option<string>, coffee: bool, data: Option<string>)
  {
    /** `entry.mtime`: undefined on the marker. */
    function StoredMtime(): (m: Option<string>)
      ensures m.Some? ==> Record?
    {
      if Record? then mtime else None
    }

    /** Whether `entry.coffee` is truthy: never on the marker. */
    predicate IsCoffee() {
      Record? && coffee
    }

    /** `entry.data`: undefined on the marker. */
    function Payload(): (d: Option<string>)
      ensures d.Some? ==> Record?
    {
      if Record? then data else None
    }
  }

  type CacheMap = map<string, Entry>

  /** Lines 67-68 and 81-83: `cache[url] = cache[url] || {}`, then record the mtime,
      and on the `.coffee` route also set `coffee = true`. An existing marker is
      kept and the property writes on it are lost. */
  function Touch(prior: Option<Entry>, mtime: string, viaCoffee: bool): (e: Entry)
    ensures prior == Some(Marker) <==> e.Marker?
    ensures e.Record? ==> e.mtime == Some(mtime)
    ensures e.Record? ==> (e.coffee <==> viaCoffee || (prior.Some? && prior.value.IsCoffee()))
    ensures e.Record? ==> e.data == (if prior.Some? then prior.value.Payload() else None)
  {
    match prior
    case None => Record(Some(mtime), viaCoffee, None)
    case Some(Marker) => Marker
    case Some(Record(_, coffee, data)) => Record(Some(mtime), coffee || viaCoffee, data)
  }

  /** Line 173: `cache[url].data = data`, lost on the marker. */
  function WithData(e: Entry, d: string): (r: Entry)
    ensures r.Marker? <==> e.Marker?
    ensures r.Record? ==> r.Payload() == Some(d) && r.StoredMtime() == e.StoredMtime() && r.coffee == e.coffee
  {
    if e.Record? then e.(data := Some(d)) else e
  }
}

=== FILE: disk.dfy ===
/** The filesystem as the middleware sees it through `fs.statSync`,
    `fs.readdirSync` and `fs.readFileSync`, and the recursive directory walk
    `getFileList` (getsmart.js lines 196-225). */
module Disk {
  import opened Optional
  import opened Strings

  /** What a successful `stat` reports. The modification time is kept as the
      string `stats.mtime.toString()` yields; a directory also lists its entry
      names in `readdir` order. */
  datatype Node = File(mtime: string, content: string) | Dir(mtime: string, entries: seq<string>)

  /** A path that is not a key cannot be stat'ed (the call throws). */
  type FileSystem = map<string, Node>

  /** `fileExists` / `fs.statSync`: a failed stat is an ordinary "absent". */
  function Stat(fs: FileSystem, path: string): Option<Node> {
    if path in fs then Some(fs[path]) else None
  }

  /** `fs.readFileSync(path, 'utf8')`: fails for a missing path and for a directory. */
  function ReadFile(fs: FileSystem, path: string): Option<string> {
    if path in fs && fs[path].File? then Some(fs[path].content) else None
  }

  /** `item.charAt(0) == '.'`. */
  predicate Hidden(name: string) {
    |name| > 0 && name[0] == '.'
  }

  function Child(path: string, name: string): string {
    path + "/" + name
  }

  /** The paths the walk can still reach from a path of length `n`: children are
      always longer than their parent, so this set shrinks on every descent. */
  ghost function PathsFrom(fs: FileSystem, n: nat): set<string> {
    set p | p in fs && |p| >= n
  }

  lemma SubsetSmaller<T>(small: set<T>, big: set<T>)
    requires small <= big
    ensures |small| <= |big|
  {
    assert big == small + (big - small);
  }

  lemma DescentShrinks(fs: FileSystem, path: string, item: string)
    requires path in fs && |item| > |path|
    ensures |PathsFrom(fs, |item|)| < |PathsFrom(fs, |path|)|
  {
    var big := PathsFrom(fs, |path|);
    SubsetSmaller(PathsFrom(fs, |item|), big - {path});
    assert path in big;
  }

  /** Every path the walk of `path` reports names a non-directory and lies under
      `path`. */
  ghost predicate FilesUnder(fs: FileSystem, path: string, files: seq<string>) {
    forall f :: f in files ==> f in fs && fs[f].File? && StartsWith(f, path + "/")
  }

  lemma FilesUnderDeeper(fs: FileSystem, path: string, name: string, files: seq<string>)
    requires FilesUnder(fs, Child(path, name), files)
    ensures FilesUnder(fs, path, files)
  {
    forall f | f in files
      ensures StartsWith(f, path + "/")
    {
      assert f[..|path + "/"|] == (f[..|Child(path, name) + "/"|])[..|path + "/"|];
    }
  }

  /** `getFileList(path)`: the files found by walking the directory at `path`. */
  function GetFileList(fs: FileSystem, path: string): (files: seq<string>)
    requires path in fs && fs[path].Dir?
    ensures FilesUnder(fs, path, files)
    decreases |PathsFrom(fs, |path|)|, 2
  {
    Collect(fs, path, fs[path].entries)
  }

  /** The loop of `getFileList` over `names`: it runs from the last name to the
      first, and the first hidden name it meets ends the loop (the `break`). */
  function Collect(fs: FileSystem, path: string, names: seq<string>): (files: seq<string>)
    requires path in fs
    ensures FilesUnder(fs, path, files)
    decreases |PathsFrom(fs, |path|)|, 1, |names|
  {
    if |names| == 0 then []
    else
      var name := names[|names| - 1];
      if Hidden(name) then []
      else Visit(fs, path, name) + Collect(fs, path, names[..|names| - 1])
  }

  /** One loop step: a path that cannot be stat'ed is skipped, a non-directory is
      collected, a directory is walked recursively. */
  function Visit(fs: FileSystem, path: string, name: string): (files: seq<string>)
    requires path in fs
    ensures FilesUnder(fs, path, files)
    decreases |PathsFrom(fs, |path|)|, 0
  {
    var item := Child(path, name);
    if item !in fs then []
    else if fs[item].File? then [item]
    else
      DescentShrinks(fs, path, item);
      var below := GetFileList(fs, item);
      FilesUnderDeeper(fs, path, name, below);
      below
  }
}

=== FILE: handler.dfy ===
/** The middleware returned by `GetSmartJS(options)` (getsmart.js lines 32-178):
    one request, seen as a pure function of the filesystem, the cache, the
    options and the request, giving what is sent back and the cache afterwards. */
module Handler {
  import opened Optional
  import opened Strings
  import opened Sorting
  import opened Disk
  import opened Cache

  const JsContentType := "application/javascript"

  /** `src` is the source root; the factory throws when it is missing or empty
      (line 28), so every handler has a non-empty one. */
  datatype Options = Options(src: string, isProduction: bool, compress: bool)

  ghost predicate ValidOptions(opts: Options) {
    opts.src != ""
  }

  /** `verb` is `req.method`; `originalMethod` may be absent (undefined). */
  datatype Request = Request(verb: string, originalMethod: Option<string>, originalUrl: string)

  /** The CoffeeScript compiler and the UglifyJS parse / mangle / squeeze /
      gen_code chain, as opaque string transformations. */
  datatype Transforms = Transforms(compile: string -> string, minify: string -> string)

  /** `Next`: `next()` was called and nothing was written. `Respond`: status,
      content type and body sent with `res.writeHead` / `res.end` (a `None` body is
      `res.end(undefined)`). `Throw`: `fs.readFileSync` threw outside any `try`,
      naming the path it was reading; the exception reaches the host. */
  datatype Outcome =
    | Next
    | Respond(status: int, contentType: string, body: Option<string>)
    | Throw(path: string)

  datatype Step = Step(outcome: Outcome, cache: CacheMap)

  /** `req.originalMethod || req.method`: an absent or empty `originalMethod` is falsy. */
  function RequestMethod(req: Request): string {
    if req.originalMethod.Some? && req.originalMethod.value != "" then req.originalMethod.value
    else req.verb
  }

  function RequestUrl(req: Request): string {
    BeforeQuery(req.originalUrl)
  }

  /** Line 43, negated: a `GET` whose URL ends in `.js`. */
  predicate Accepts(req: Request)
    ensures Accepts(req) ==> EndsWith(RequestUrl(req), ".js")
  {
    SubstrSuffixTest(RequestUrl(req), ".js");
    RequestMethod(req) == "GET" && Substr(RequestUrl(req), -3) == ".js"
  }

  /** `serveCached` (lines 268-271): status 200 with the entry's `data`, which is
      undefined for a bundle marker. */
  function ServeCached(cache: CacheMap, url: string): (o: Outcome)
    requires url in cache
    ensures o.Respond? && o.status == 200 && o.contentType == JsContentType
    ensures cache[url].Marker? ==> o.body == None
    ensures cache[url].Record? ==> o.body == cache[url].data
  {
    Respond(200, JsContentType, cache[url].Payload())
  }

  /** JavaScript's `mtimeString == cache[file]` where the cached value is `true` or
      an object, never a string: `true` is compared as the number 1 and the object
      as the text "[object Object]". */
  predicate LooselyEqual(mtime: string, e: Entry) {
    match e
    case Marker => mtime == "1"
    case Record(_, _, _) => mtime == "[object Object]"
  }

  /** The loop at lines 102-117, from the last member to the first: `None` when a
      `statSync` threw (caught at line 126), otherwise whether some member counts
      as changed. */
  function MembersChanged(fs: FileSystem, cache: CacheMap, files: seq<string>): (r: Option<bool>)
    ensures r == None ==> exists i :: 0 <= i < |files| && files[i] in cache && files[i] !in fs
    ensures r == Some(false) <==>
      forall i :: 0 <= i < |files| ==>
        files[i] in cache && files[i] in fs && LooselyEqual(fs[files[i]].mtime, cache[files[i]])
    decreases |files|
  {
    if |files| == 0 then Some(false)
    else
      var file := files[|files| - 1];
      if file !in cache then Some(true)
      else match Stat(fs, file)
        case None => None
        case Some(node) =>
          if !LooselyEqual(node.mtime, cache[file]) then Some(true)
          else
            var earlier := MembersChanged(fs, cache, files[..|files| - 1]);
            assert forall i :: 0 <= i < |files| - 1 ==> files[..|files| - 1][i] == files[i];
            earlier
  }

  /** One bundle member (lines 141-146): a `.js` file contributes its text and a
      `;` plus blank line, a `.coffee` file the compiled form of the same, anything
      else nothing. A read that throws names its path. */
  function Piece(fs: FileSystem, compile: string -> string, file: string): (r: Result<string, string>)
    ensures r.Failure? ==> r.error == file && ReadFile(fs, file).None?
    ensures ReadFile(fs, file).Some? ==> r.Success?
    ensures !EndsWith(file, ".js") && !EndsWith(file, ".coffee") ==> r == Success("")
    ensures EndsWith(file, ".js") && ReadFile(fs, file).Some? ==>
      r == Success(ReadFile(fs, file).value + ";\n\n")
    ensures EndsWith(file, ".coffee") && ReadFile(fs, file).Some? ==>
      r == Success(compile(ReadFile(fs, file).value + ";\n\n"))
  {
    SubstrSuffixTest(file, ".js");
    SubstrSuffixTest(file, ".coffee");
    CoffeeIsNotJs(file);
    if Substr(file, -3) == ".js" then
      match ReadFile(fs, file)
      case None => Failure(file)
      case Some(text) => Success(text + ";\n\n")
    else if Substr(file, -7) == ".coffee" then
      match ReadFile(fs, file)
      case None => Failure(file)
      case Some(text) => Success(compile(text + ";\n\n"))
    else Success("")
  }

  /** A name ending in `.coffee` ends in `fee`, so it does not end in `.js`. */
  lemma CoffeeIsNotJs(file: string)
    ensures EndsWith(file, ".coffee") ==> !EndsWith(file, ".js")
  {
    if EndsWith(file, ".coffee") {
      assert file[|file| - 3..] == ".coffee"[4..];
    }
  }

  lemma ShiftedPieces(fs: FileSystem, compile: string -> string, files: seq<string>, tail: Result<string, string>)
    requires |files| > 0 && Piece(fs, compile, files[0]).Success?
    requires tail.Success? <==> forall i :: 0 <= i < |files| - 1 ==> Piece(fs, compile, files[1..][i]).Success?
    requires tail.Failure? ==>
      exists i :: 0 <= i < |files| - 1 && Piece(fs, compile, files[1..][i]) == Failure(tail.error)
        && forall k :: 0 <= k < i ==> Piece(fs, compile, files[1..][k]).Success?
    ensures tail.Success? <==> forall i :: 0 <= i < |files| ==> Piece(fs, compile, files[i]).Success?
    ensures tail.Failure? ==>
      exists i :: 0 <= i < |files| && Piece(fs, compile, files[i]) == Failure(tail.error)
        && forall k :: 0 <= k < i ==> Piece(fs, compile, files[k]).Success?
  {
    if tail.Failure? {
      var i :| 0 <= i < |files| - 1 && Piece(fs, compile, files[1..][i]) == Failure(tail.error)
        && forall k :: 0 <= k < i ==> Piece(fs, compile, files[1..][k]).Success?;
      assert Piece(fs, compile, files[i + 1]) == Failure(tail.error);
      forall k | 0 <= k < i + 1
        ensures Piece(fs, compile, files[k]).Success?
      {
        if k > 0 { assert files[k] == files[1..][k - 1]; }
      }
    } else {
      forall i | 0 <= i < |files|
        ensures Piece(fs, compile, files[i]).Success?
      {
        if i > 0 { assert files[i] == files[1..][i - 1]; }
      }
    }
  }

  /** Lines 137-147: the members' pieces in list order; the first read that throws
      ends the request. */
  function Concat(fs: FileSystem, compile: string -> string, files: seq<string>): (r: Result<string, string>)
    ensures r.Success? <==> forall i :: 0 <= i < |files| ==> Piece(fs, compile, files[i]).Success?
    ensures r.Failure? ==>
      exists i :: 0 <= i < |files| && Piece(fs, compile, files[i]) == Failure(r.error)
        && forall k :: 0 <= k < i ==> Piece(fs, compile, files[k]).Success?
    decreases |files|
  {
    if |files| == 0 then Success("")
    else
      var head := Piece(fs, compile, files[0]);
      if head.Failure? then head
      else
        var tail := Concat(fs, compile, files[1..]);
        ShiftedPieces(fs, compile, files, tail);
        if tail.Failure? then tail
        else Success(head.value + tail.value)
  }

  /** One step of assembly: the first member's piece, then the rest. */
  lemma ConcatStep(fs: FileSystem, compile: string -> string, files: seq<string>)
    requires |files| > 0
    ensures var head, tail := Piece(fs, compile, files[0]), Concat(fs, compile, files[1..]);
      Concat(fs, compile, files)
        == if head.Failure? then head else if tail.Failure? then tail else Success(head.value + tail.value)
  {
  }

  /** Reference reading of lines 137-147: each member's piece, in list order,
      joined. */
  function PieceText(fs: FileSystem, compile: string -> string, file: string): string {
    match Piece(fs, compile, file)
    case Success(text) => text
    case Failure(_) => ""
  }

  function Texts(fs: FileSystem, compile: string -> string, files: seq<string>): (texts: seq<string>)
    ensures |texts| == |files|
    ensures forall i :: 0 <= i < |files| ==> texts[i] == PieceText(fs, compile, files[i])
  {
    seq(|files|, i requires 0 <= i < |files| => PieceText(fs, compile, files[i]))
  }

  function Flatten(parts: seq<string>): string
    decreases |parts|
  {
    if |parts| == 0 then "" else parts[0] + Flatten(parts[1..])
  }

  function Text(fs: FileSystem, compile: string -> string, files: seq<string>): string {
    Flatten(Texts(fs, compile, files))
  }

  lemma {:induction false} FlattenAppend(x: seq<string>, y: seq<string>)
    ensures Flatten(x + y) == Flatten(x) + Flatten(y)
    decreases |x|
  {
    if |x| == 0 {
      assert x + y == y;
    } else {
      assert (x + y)[0] == x[0] && (x + y)[1..] == x[1..] + y;
      FlattenAppend(x[1..], y);
    }
  }

  lemma TextsAppend(fs: FileSystem, compile: string -> string, a: seq<string>, b: seq<string>)
    ensures Texts(fs, compile, a + b) == Texts(fs, compile, a) + Texts(fs, compile, b)
  {
    var l, r := Texts(fs, compile, a + b), Texts(fs, compile, a) + Texts(fs, compile, b);
    forall i | 0 <= i < |l|
      ensures l[i] == r[i]
    {
      if i < |a| {
        assert (a + b)[i] == a[i];
      } else {
        assert (a + b)[i] == b[i - |a|];
      }
    }
  }

  /** A bundle that assembles has exactly the reference text. */
  lemma {:induction false} ConcatIsText(fs: FileSystem, compile: string -> string, files: seq<string>)
    requires Concat(fs, compile, files).Success?
    ensures Concat(fs, compile, files).value == Text(fs, compile, files)
    decreases |files|
  {
    if |files| > 0 {
      ConcatStep(fs, compile, files);
      ConcatIsText(fs, compile, files[1..]);
      assert Texts(fs, compile, files)[1..] == Texts(fs, compile, files[1..]);
    }
  }

  lemma TextAppend(fs: FileSystem, compile: string -> string, a: seq<string>, b: seq<string>)
    ensures Text(fs, compile, a + b) == Text(fs, compile, a) + Text(fs, compile, b)
  {
    TextsAppend(fs, compile, a, b);
    FlattenAppend(Texts(fs, compile, a), Texts(fs, compile, b));
  }

  /** Assembling two runs of members one after the other is assembling each and
      joining the texts. */
  lemma ConcatAppend(fs: FileSystem, compile: string -> string, a: seq<string>, b: seq<string>)
    requires Concat(fs, compile, a + b).Success?
    ensures Concat(fs, compile, a).Success? && Concat(fs, compile, b).Success?
    ensures Concat(fs, compile, a + b).value == Concat(fs, compile, a).value + Concat(fs, compile, b).value
  {
    forall i | 0 <= i < |a|
      ensures Piece(fs, compile, a[i]).Success?
    {
      assert (a + b)[i] == a[i];
    }
    forall i | 0 <= i < |b|
      ensures Piece(fs, compile, b[i]).Success?
    {
      assert (a + b)[|a| + i] == b[i];
    }
    ConcatIsText(fs, compile, a + b);
    ConcatIsText(fs, compile, a);
    ConcatIsText(fs, compile, b);
    TextAppend(fs, compile, a, b);
  }

  /** Line 166: minify when `compress` is set and the URL's last six characters are
      not `min.js` (so `admin.js` is left alone as well). */
  predicate Minifies(opts: Options, url: string)
    ensures Minifies(opts, url) <==> opts.compress && !EndsWith(url, "min.js")
  {
    SubstrSuffixTest(url, "min.js");
    opts.compress && Substr(url, |url| - 6) != "min.js"
  }

  /** Lines 166-171: the UglifyJS chain, when `Minifies` says so. */
  function MaybeMinify(opts: Options, tx: Transforms, url: string, s: string): string {
    if Minifies(opts, url) then tx.minify(s) else s
  }

  /** Line 87: the directory a request for `<stem>.js` bundles is `<src><stem>`. */
  function BundleDir(opts: Options, url: string): string
    requires EndsWith(url, ".js")
  {
    opts.src + url[..|url| - 3]
  }

  /** Lines 161-177: compile if the entry says CoffeeScript, minify if asked, store
      the result as the entry's `data` and send it. */
  function Emit(cache: CacheMap, opts: Options, tx: Transforms, url: string, text: string): (r: Step)
    requires url in cache
    ensures r.outcome.Respond? && r.outcome.status == 200 && r.outcome.contentType == JsContentType
    ensures r.outcome.body.Some?
    ensures r.cache.Keys == cache.Keys
    ensures forall k :: k in cache && k != url ==> r.cache[k] == cache[k]
    ensures r.cache[url].Marker? <==> cache[url].Marker?
    ensures cache[url].Marker? ==> r.cache == cache
    ensures r.cache[url].Record? ==>
      r.cache[url].data == r.outcome.body && r.cache[url].StoredMtime() == cache[url].StoredMtime()
        && r.cache[url].coffee == cache[url].coffee
    ensures !cache[url].IsCoffee() && !Minifies(opts, url) ==> r.outcome.body == Some(text)
  {
    var source := if cache[url].IsCoffee() then tx.compile(text) else text;
    var output := MaybeMinify(opts, tx, url, source);
    Step(Respond(200, JsContentType, Some(output)), cache[url := WithData(cache[url], output)])
  }

  /** Lines 59-68 / 73-83 followed by 152-177, for a URL whose file (or `.coffee`
      file, when `viaCoffee`) was stat'ed with modification time `mtime`. */
  function Revalidate(fs: FileSystem, cache: CacheMap, opts: Options, tx: Transforms,
                      url: string, mtime: string, viaCoffee: bool): (r: Step)
    ensures url in cache && cache[url].StoredMtime() == Some(mtime) ==>
      r == Step(ServeCached(cache, url), cache)
    ensures url in r.cache
    ensures r.cache.Keys == cache.Keys + {url}
    ensures forall k :: k in cache && k != url ==> r.cache[k] == cache[k]
    ensures r.cache[url].Marker? <==> url in cache && cache[url].Marker?
    ensures r.cache[url].Record? && !(url in cache && cache[url].StoredMtime() == Some(mtime)) ==>
      r.cache[url].mtime == Some(mtime)
    ensures r.cache[url].Record? && !(url in cache && cache[url].StoredMtime() == Some(mtime)) ==>
      (r.cache[url].coffee <==> viaCoffee || (url in cache && cache[url].IsCoffee()))
    ensures !r.outcome.Next?
  {
    if url in cache && cache[url].StoredMtime() == Some(mtime) then
      Step(ServeCached(cache, url), cache)
    else
      var entry := Touch(if url in cache then Some(cache[url]) else None, mtime, viaCoffee);
      var path := opts.src + (if entry.IsCoffee() then CoffeeUrl(url) else url);
      match ReadFile(fs, path)
      case None => Step(Throw(path), cache[url := entry])
      case Some(text) => Emit(cache[url := entry], opts, tx, url, text)
  }

  /** Lines 85-151: the directory with the URL's stem, bundled. Any failure inside
      the `try` (no such path, not a directory, a member that cannot be stat'ed)
      and a bundle judged unchanged all pass the request on. */
  function Bundle(fs: FileSystem, cache: CacheMap, opts: Options, tx: Transforms, url: string): (r: Step)
    requires EndsWith(url, ".js")
    ensures r.outcome.Next? || r.outcome.Throw? ==> r.cache == cache
    ensures r.outcome.Respond? ==> r.cache == cache[url := Marker]
    ensures r.outcome.Respond? ==> r.outcome.body.Some?
  {
    var dir := BundleDir(opts, url);
    match Stat(fs, dir)
    case None => Step(Next, cache)
    case Some(node) =>
      if !node.Dir? then Step(Next, cache)
      else
        var files := SortBy(GetFileList(fs, dir));
        match MembersChanged(fs, cache, files)
        case None => Step(Next, cache)
        case Some(changed) =>
          if !changed then Step(Next, cache)
          else
            match Concat(fs, tx.compile, files)
            case Failure(path) => Step(Throw(path), cache)
            case Success(text) => Emit(cache[url := Marker], opts, tx, url, text)
  }

  /** Lines 56-132: the literal file, else the `.coffee` file, else the directory. */
  function Resolve(fs: FileSystem, cache: CacheMap, opts: Options, tx: Transforms, url: string): (r: Step)
    requires EndsWith(url, ".js")
  {
    match Stat(fs, opts.src + url)
    case Some(node) => Revalidate(fs, cache, opts, tx, url, node.mtime, false)
    case None =>
      match Stat(fs, opts.src + CoffeeUrl(url))
      case Some(node) => Revalidate(fs, cache, opts, tx, url, node.mtime, true)
      case None => Bundle(fs, cache, opts, tx, url)
  }

  /** The middleware for one request. */
  function Handle(fs: FileSystem, cache: CacheMap, opts: Options, tx: Transforms, req: Request): (r: Step)
    requires ValidOptions(opts)
    ensures !Accepts(req) ==> r == Step(Next, cache)
    ensures r.outcome.Next? ==> r.cache == cache
    ensures r.outcome.Respond? ==> r.outcome.status == 200 && r.outcome.contentType == JsContentType
    ensures r.cache.Keys <= cache.Keys + {RequestUrl(req)}
    ensures cache.Keys <= r.cache.Keys
    ensures forall k :: k in cache && k != RequestUrl(req) ==> r.cache[k] == cache[k]
  {
    var url := RequestUrl(req);
    if !Accepts(req) then Step(Next, cache)
    else if opts.isProduction && url in cache then Step(ServeCached(cache, url), cache)
    else Resolve(fs, cache, opts, tx, url)
  }
}

=== FILE: makedir.dfy ===
/** `makeDirectory(path, root)` (getsmart.js lines 232-262): peel the first
    `/`-separated segment off the path, stat `root + segment + "/"`, create it when
    the stat fails, and continue with the rest of the path below it. */
module MakeDir {
  import opened Strings
  import opened Disk

  /** One directory the walk looks at: it already existed, or `fs.mkdirSync` was
      called for it (a failing mkdir is only logged). */
  datatype DirStep = Existing(dir: string) | Create(dir: string)

  /** Line 237: one trailing `/` is dropped. */
  function TrimSlash(path: string): (p: string)
    ensures p <= path && |path| - 1 <= |p|
    ensures EndsWith(path, "/") <==> |p| < |path|
  {
    if EndsWith(path, "/") then path[..|path| - 1] else path
  }

  /** What lines 237-244 and 261 compute from `path`: the segment added to `root`,
      and the rest of the path handed to the recursive call when there is one. */
  lemma Peel(root: string, path: string)
    ensures var branches := Split(TrimSlash(path), '/');
      && StartsWith(root + path + "/", root + branches[0] + "/")
      && (|branches| > 1 ==>
            && |Join(branches[1..], '/')| < |path|
            && StartsWith(root + path + "/", root + branches[0] + "/" + Join(branches[1..], '/') + "/"))
  {
    var p := TrimSlash(path);
    var branches := Split(p, '/');
    var whole := root + path + "/";
    JoinSplit(p, '/');
    assert whole[..|root + p|] == root + p;
    if |branches| > 1 {
      var rest := Join(branches[1..], '/');
      assert p == branches[0] + "/" + rest;
      assert whole[..|root + p + "/"|] == root + p + "/";
      assert (root + p)[..|root + branches[0] + "/"|] == root + branches[0] + "/";
    } else {
      assert p == branches[0];
    }
  }

  function MakeDirectory(fs: FileSystem, path: string, root: string): (steps: seq<DirStep>)
    ensures |steps| > 0
    ensures forall i :: 0 <= i < |steps| ==> (steps[i].Create? <==> steps[i].dir !in fs)
    ensures forall i :: 0 <= i < |steps| ==>
      StartsWith(root + path + "/", steps[i].dir) && EndsWith(steps[i].dir, "/")
    ensures StartsWith(steps[0].dir, root) && |steps[0].dir| > |root|
    ensures forall i :: 0 < i < |steps| ==>
      StartsWith(steps[i].dir, steps[i - 1].dir) && |steps[i].dir| > |steps[i - 1].dir|
    decreases |path|
  {
    var branches := Split(TrimSlash(path), '/');
    var here := root + branches[0] + "/";
    var step := if here in fs then Existing(here) else Create(here);
    Peel(root, path);
    StepBelowRoot(root, branches[0]);
    if |branches| > 1 then
      var rest := Join(branches[1..], '/');
      var below := MakeDirectory(fs, rest, here);
      PrefixesOfPrefix(root + path + "/", here + rest + "/", below);
      Chain(fs, root + path + "/", step, below);
      [step] + below
    else
      [step]
  }

  /** The directory for a segment lies strictly below the root and ends in `/`. */
  lemma StepBelowRoot(root: string, segment: string)
    ensures StartsWith(root + segment + "/", root) && |root + segment + "/"| > |root|
    ensures EndsWith(root + segment + "/", "/")
  {
    assert (root + segment + "/")[..|root|] == root;
  }

  /** Putting a step before a chain that starts below it keeps the chain. */
  lemma Chain(fs: FileSystem, whole: string, step: DirStep, below: seq<DirStep>)
    requires (step.Create? <==> step.dir !in fs) && StartsWith(whole, step.dir) && EndsWith(step.dir, "/")
    requires |below| > 0 && StartsWith(below[0].dir, step.dir) && |below[0].dir| > |step.dir|
    requires forall i :: 0 <= i < |below| ==> (below[i].Create? <==> below[i].dir !in fs)
    requires forall i :: 0 <= i < |below| ==> StartsWith(whole, below[i].dir) && EndsWith(below[i].dir, "/")
    requires forall i :: 0 < i < |below| ==>
      StartsWith(below[i].dir, below[i - 1].dir) && |below[i].dir| > |below[i - 1].dir|
    ensures var steps := [step] + below;
      && (forall i :: 0 <= i < |steps| ==> (steps[i].Create? <==> steps[i].dir !in fs))
      && (forall i :: 0 <= i < |steps| ==> StartsWith(whole, steps[i].dir) && EndsWith(steps[i].dir, "/"))
      && (forall i :: 0 < i < |steps| ==>
            StartsWith(steps[i].dir, steps[i - 1].dir) && |steps[i].dir| > |steps[i - 1].dir|)
  {
    var steps := [step] + below;
    forall i | 0 < i < |steps|
      ensures steps[i] == below[i - 1]
    {
    }
  }

  lemma PrefixesOfPrefix(whole: string, part: string, steps: seq<DirStep>)
    requires StartsWith(whole, part)
    requires forall i :: 0 <= i < |steps| ==> StartsWith(part, steps[i].dir)
    ensures forall i :: 0 <= i < |steps| ==> StartsWith(whole, steps[i].dir)
  {
    forall i | 0 <= i < |steps|
      ensures StartsWith(whole, steps[i].dir)
    {
      assert whole[..|steps[i].dir|] == part[..|steps[i].dir|];
    }
  }

  ghost predicate Segments(parts: seq<string>) {
    |parts| > 0 && forall i :: 0 <= i < |parts| ==> |parts[i]| > 0 && '/' !in parts[i]
  }

  /** On a path of segments, one level of the recursion adds the first segment. */
  lemma UnfoldSegments(fs: FileSystem, parts: seq<string>, root: string)
    requires Segments(parts)
    ensures var here := root + parts[0] + "/";
      var step := if here in fs then Existing(here) else Create(here);
      && (|parts| == 1 ==> MakeDirectory(fs, Join(parts, '/'), root) == [step])
      && (|parts| > 1 ==>
            MakeDirectory(fs, Join(parts, '/'), root) == [step] + MakeDirectory(fs, Join(parts[1..], '/'), here))
  {
    NoTrailingSlash(parts);
    SplitJoin(parts, '/');
  }

  lemma JoinFirst(parts: seq<string>, i: nat)
    requires 0 < i < |parts|
    ensures Join(parts[..i + 1], '/') == parts[0] + "/" + Join(parts[1..][..i], '/')
  {
    assert parts[..i + 1][1..] == parts[1..][..i];
  }

  lemma PrependAncestor(parts: seq<string>, root: string, step: DirStep, below: seq<DirStep>)
    requires |parts| > 1 && step.dir == root + parts[0] + "/"
    requires |below| == |parts| - 1
    requires forall i :: 0 <= i < |parts| - 1 ==>
      below[i].dir == root + parts[0] + "/" + Join(parts[1..][..i + 1], '/') + "/"
    ensures forall i :: 0 <= i < |parts| ==>
      ([step] + below)[i].dir == root + Join(parts[..i + 1], '/') + "/"
  {
    assert Join(parts[..1], '/') == parts[0];
    forall i | 0 < i < |parts|
      ensures ([step] + below)[i].dir == root + Join(parts[..i + 1], '/') + "/"
    {
      assert ([step] + below)[i] == below[i - 1];
      JoinFirst(parts, i);
    }
  }

  /** For a path made of non-empty segments, the walk visits every ancestor
      directory from the top down: the `i`-th step is `root` followed by the first
      `i + 1` segments and a `/`. */
  lemma {:induction false} AncestorsInOrder(fs: FileSystem, parts: seq<string>, root: string)
    requires Segments(parts)
    ensures |MakeDirectory(fs, Join(parts, '/'), root)| == |parts|
    ensures forall i :: 0 <= i < |parts| ==>
      MakeDirectory(fs, Join(parts, '/'), root)[i].dir == root + Join(parts[..i + 1], '/') + "/"
    decreases |parts|
  {
    UnfoldSegments(fs, parts, root);
    assert Join(parts[..1], '/') == parts[0];
    if |parts| > 1 {
      var here := root + parts[0] + "/";
      var rest := parts[1..];
      assert Segments(rest);
      AncestorsInOrder(fs, rest, here);
      var below := MakeDirectory(fs, Join(rest, '/'), here);
      var step := if here in fs then Existing(here) else Create(here);
      PrependAncestor(parts, root, step, below);
    }
  }

  lemma {:induction false} NoTrailingSlash(parts: seq<string>)
    requires Segments(parts)
    ensures !EndsWith(Join(parts, '/'), "/")
    decreases |parts|
  {
    var last := parts[|parts| - 1];
    if |parts| > 1 {
      NoTrailingSlash(parts[1..]);
      var j := Join(parts[1..], '/');
      assert Join(parts, '/') == parts[0] + "/" + j;
      assert Join(parts, '/')[|Join(parts, '/')| - 1] == j[|j| - 1];
    } else {
      assert last[|last| - 1] in last;
    }
  }
}

=== FILE: optional.dfy ===
/** Failure-carrying wrappers shared by the model: an optional value (JavaScript's
    `undefined` versus a value, or a filesystem call that threw) and a result that
    names what went wrong. */
module Optional {

  datatype Option<+T> = None | Some(value: T)

  datatype Result<+T, +E> = Success(value: T) | Failure(error: E)
}

=== FILE: properties.dfy ===
/** What one request, or two requests in a row, do: the promises of the
    middleware (getsmart.js lines 32-178) stated over `Handler.Handle`. */
module Properties {
  import opened Optional
  import opened Strings
  import opened Sorting
  import opened Disk
  import opened Walk
  import opened Cache
  import opened Handler

  /** Modification times as `Date.prototype.toString` writes them: never the text
      a cached `true` or a cached object compares loosely equal to. */
  ghost predicate PlausibleMtimes(fs: FileSystem) {
    forall p :: p in fs ==> fs[p].mtime != "1" && fs[p].mtime != "[object Object]"
  }

  /** True when the request reaches the filesystem: it passes the filter and the
      production fast path does not answer it. */
  ghost predicate Resolves(cache: CacheMap, opts: Options, req: Request) {
    Accepts(req) && !(opts.isProduction && RequestUrl(req) in cache)
  }

  // ---------------------------------------------------------------- filter

  /** A request that is not a `GET`, or whose URL up to the first `?` does not end
      in `.js`, is passed on and the cache is left as it was. */
  lemma NonScriptRequestsPassThrough(fs: FileSystem, cache: CacheMap, opts: Options, tx: Transforms, req: Request)
    requires ValidOptions(opts)
    requires RequestMethod(req) != "GET" || !EndsWith(BeforeQuery(req.originalUrl), ".js")
    ensures Handle(fs, cache, opts, tx, req) == Step(Next, cache)
  {
    SubstrSuffixTest(RequestUrl(req), ".js");
  }

  /** The query string plays no part: two URLs with the same part before `?` are
      handled alike. */
  lemma QueryStringIgnored(fs: FileSystem, cache: CacheMap, opts: Options, tx: Transforms,
                           req: Request, query: string)
    requires ValidOptions(opts)
    requires '?' !in req.originalUrl
    ensures Handle(fs, cache, opts, tx, req.(originalUrl := req.originalUrl + "?" + query))
         == Handle(fs, cache, opts, tx, req)
  {
    var u, full := req.originalUrl, req.originalUrl + "?" + query;
    var r := BeforeQuery(full);
    assert BeforeQuery(u) == u;
    assert full[|u|] == '?';
    assert forall i :: 0 <= i < |u| ==> full[i] == u[i];
    assert |r| <= |u|;
    assert r == u;
  }

  // ---------------------------------------------------------------- production fast path

  /** In production, a URL that has any cache entry is answered from it without
      consulting the filesystem; for a bundle's marker entry the body is undefined. */
  lemma ProductionServesFromCache(fs1: FileSystem, fs2: FileSystem, cache: CacheMap, opts: Options,
                                  tx: Transforms, req: Request)
    requires ValidOptions(opts) && opts.isProduction
    requires Accepts(req) && RequestUrl(req) in cache
    ensures Handle(fs1, cache, opts, tx, req) == Handle(fs2, cache, opts, tx, req)
    ensures Handle(fs1, cache, opts, tx, req)
         == Step(Respond(200, JsContentType, cache[RequestUrl(req)].Payload()), cache)
    ensures cache[RequestUrl(req)].Marker? ==> Handle(fs1, cache, opts, tx, req).outcome.body == None
  {
  }

  // ---------------------------------------------------------------- resolution order

  /** First choice: the literal `<src><url>` file. Seen for the first time, it is
      read, minified unless exempt, recorded with its mtime and sent. */
  lemma LiteralFileWins(fs: FileSystem, cache: CacheMap, opts: Options, tx: Transforms, req: Request)
    requires ValidOptions(opts) && Accepts(req)
    requires RequestUrl(req) !in cache
    requires opts.src + RequestUrl(req) in fs && fs[opts.src + RequestUrl(req)].File?
    ensures var url, file := RequestUrl(req), fs[opts.src + RequestUrl(req)];
      var out := MaybeMinify(opts, tx, url, file.content);
      Handle(fs, cache, opts, tx, req)
        == Step(Respond(200, JsContentType, Some(out)), cache[url := Record(Some(file.mtime), false, Some(out))])
  {
  }

  /** Second choice: `<src><stem>.coffee`, when there is nothing at `<src><url>`.
      It is read, compiled, minified unless exempt, and recorded as CoffeeScript. */
  lemma CoffeeFileSecond(fs: FileSystem, cache: CacheMap, opts: Options, tx: Transforms, req: Request)
    requires ValidOptions(opts) && Accepts(req)
    requires RequestUrl(req) !in cache
    requires opts.src + RequestUrl(req) !in fs
    requires opts.src + CoffeeUrl(RequestUrl(req)) in fs && fs[opts.src + CoffeeUrl(RequestUrl(req))].File?
    ensures var url, file := RequestUrl(req), fs[opts.src + CoffeeUrl(RequestUrl(req))];
      var out := MaybeMinify(opts, tx, url, tx.compile(file.content));
      Handle(fs, cache, opts, tx, req)
        == Step(Respond(200, JsContentType, Some(out)), cache[url := Record(Some(file.mtime), true, Some(out))])
  {
  }

  /** Last choice: the directory `<src><stem>`. When there is neither file and no
      directory of that name (nothing there, or something that is not a
      directory), the request is passed on untouched. */
  lemma NothingToServe(fs: FileSystem, cache: CacheMap, opts: Options, tx: Transforms, req: Request)
    requires ValidOptions(opts) && Resolves(cache, opts, req)
    requires opts.src + RequestUrl(req) !in fs
    requires opts.src + CoffeeUrl(RequestUrl(req)) !in fs
    requires BundleDir(opts, RequestUrl(req)) !in fs || !fs[BundleDir(opts, RequestUrl(req))].Dir?
    ensures Handle(fs, cache, opts, tx, req) == Step(Next, cache)
  {
  }

  /** The staleness loop can only say "unchanged" when every member is cached, and
      members never are under plausible mtimes: it reports a change exactly when
      there is a member. */
  lemma MembersAlwaysChanged(fs: FileSystem, cache: CacheMap, files: seq<string>)
    requires PlausibleMtimes(fs)
    requires forall f :: f in files ==> f in fs
    ensures MembersChanged(fs, cache, files) == Some(|files| > 0)
  {
    if |files| > 0 {
      var last := files[|files| - 1];
      assert last in files;
    }
  }

  /** A `.js` or `.coffee` member that cannot be read throws (lines 142 and 145,
      outside any `try`), and the failure names that member. */
  lemma UnreadableMemberFails(fs: FileSystem, compile: string -> string, file: string)
    requires EndsWith(file, ".js") || EndsWith(file, ".coffee")
    requires ReadFile(fs, file).None?
    ensures Piece(fs, compile, file) == Failure(file)
  {
    SubstrSuffixTest(file, ".js");
    SubstrSuffixTest(file, ".coffee");
  }

  /** Every member of a listed bundle can be read, so assembly never throws. */
  lemma ListedMembersRead(fs: FileSystem, compile: string -> string, dir: string)
    requires dir in fs && fs[dir].Dir?
    ensures forall f :: f in SortBy(GetFileList(fs, dir)) ==> f in fs && fs[f].File?
    ensures Concat(fs, compile, SortBy(GetFileList(fs, dir))).Success?
  {
    var listed := GetFileList(fs, dir);
    var files := SortBy(listed);
    forall f | f in files
      ensures f in fs && fs[f].File?
    {
      assert f in multiset(files);
      assert f in multiset(listed);
    }
  }

  /** A directory with plausible mtimes always reaches assembly (lines 136-151),
      unless it lists no member. */
  lemma BundleEmits(fs: FileSystem, cache: CacheMap, opts: Options, tx: Transforms, url: string)
    requires EndsWith(url, ".js") && PlausibleMtimes(fs)
    requires BundleDir(opts, url) in fs && fs[BundleDir(opts, url)].Dir?
    ensures var files := SortBy(GetFileList(fs, BundleDir(opts, url)));
      var r := Bundle(fs, cache, opts, tx, url);
      && Concat(fs, tx.compile, files).Success?
      && (|files| == 0 ==> r == Step(Next, cache))
      && (|files| > 0 ==> r == Emit(cache[url := Marker], opts, tx, url, Concat(fs, tx.compile, files).value))
  {
    var dir := BundleDir(opts, url);
    var files := SortBy(GetFileList(fs, dir));
    assert Concat(fs, tx.compile, files).Success? && MembersChanged(fs, cache, files) == Some(|files| > 0) by {
      ListedMembersRead(fs, tx.compile, dir);
      MembersAlwaysChanged(fs, cache, files);
    }
    assert Stat(fs, dir) == Some(fs[dir]);
    if |files| > 0 {
      var text := Concat(fs, tx.compile, files).value;
      assert Bundle(fs, cache, opts, tx, url) == Emit(cache[url := Marker], opts, tx, url, text);
    }
  }

  lemma BundleOfDirectory(fs: FileSystem, cache: CacheMap, opts: Options, tx: Transforms, url: string)
    requires EndsWith(url, ".js") && PlausibleMtimes(fs)
    requires BundleDir(opts, url) in fs && fs[BundleDir(opts, url)].Dir?
    ensures var files := SortBy(GetFileList(fs, BundleDir(opts, url)));
      var r := Bundle(fs, cache, opts, tx, url);
      && Concat(fs, tx.compile, files).Success?
      && (|files| == 0 ==> r == Step(Next, cache))
      && (|files| > 0 ==>
            r == Step(Respond(200, JsContentType,
                              Some(MaybeMinify(opts, tx, url, Text(fs, tx.compile, files)))),
                      cache[url := Marker]))
  {
    var files := SortBy(GetFileList(fs, BundleDir(opts, url)));
    BundleEmits(fs, cache, opts, tx, url);
    if |files| > 0 {
      var text := Concat(fs, tx.compile, files).value;
      ConcatIsText(fs, tx.compile, files);
      var e := Emit(cache[url := Marker], opts, tx, url, text);
      assert e.outcome.body == Some(MaybeMinify(opts, tx, url, text));
      assert e.cache == cache[url := Marker];
    }
  }

  /** The directory `<src><stem>`: its files are sorted by path and, since member
      mtimes are never cached, a non-empty bundle is rebuilt on every request and
      stored as the bare marker, while an empty one is passed on. */
  lemma DirectoryBundled(fs: FileSystem, cache: CacheMap, opts: Options, tx: Transforms, req: Request)
    requires ValidOptions(opts) && Resolves(cache, opts, req) && PlausibleMtimes(fs)
    requires opts.src + RequestUrl(req) !in fs
    requires opts.src + CoffeeUrl(RequestUrl(req)) !in fs
    requires BundleDir(opts, RequestUrl(req)) in fs && fs[BundleDir(opts, RequestUrl(req))].Dir?
    ensures var url := RequestUrl(req);
      var files := SortBy(GetFileList(fs, BundleDir(opts, url)));
      var r := Handle(fs, cache, opts, tx, req);
      && Concat(fs, tx.compile, files).Success?
      && (|files| == 0 ==> r == Step(Next, cache))
      && (|files| > 0 ==>
            r == Step(Respond(200, JsContentType,
                              Some(MaybeMinify(opts, tx, url, Text(fs, tx.compile, files)))),
                      cache[url := Marker]))
  {
    BundleOfDirectory(fs, cache, opts, tx, RequestUrl(req));
  }

  // ---------------------------------------------------------------- staleness

  /** A resolved file (or `.coffee` file) whose current mtime string equals the
      stored one is answered with the stored data, and the cache is unchanged. */
  lemma UnchangedFileServedFromCache(fs: FileSystem, cache: CacheMap, opts: Options, tx: Transforms, req: Request)
    requires ValidOptions(opts) && Accepts(req)
    requires var url := RequestUrl(req);
      var path := if opts.src + url in fs then opts.src + url else opts.src + CoffeeUrl(url);
      path in fs && url in cache && cache[url].StoredMtime() == Some(fs[path].mtime)
    ensures Handle(fs, cache, opts, tx, req)
         == Step(Respond(200, JsContentType, cache[RequestUrl(req)].data), cache)
  {
  }

  /** A literal file whose mtime string differs from the stored one is read again;
      the entry gets the new mtime and data and keeps its CoffeeScript flag. */
  lemma ChangedFileReread(fs: FileSystem, cache: CacheMap, opts: Options, tx: Transforms, req: Request)
    requires ValidOptions(opts) && Resolves(cache, opts, req)
    requires var url := RequestUrl(req);
      && opts.src + url in fs && fs[opts.src + url].File?
      && url in cache && cache[url].Record? && !cache[url].coffee
      && cache[url].mtime != Some(fs[opts.src + url].mtime)
    ensures var url, file := RequestUrl(req), fs[opts.src + RequestUrl(req)];
      var out := MaybeMinify(opts, tx, url, file.content);
      Handle(fs, cache, opts, tx, req)
        == Step(Respond(200, JsContentType, Some(out)), cache[url := Record(Some(file.mtime), false, Some(out))])
  {
  }

  /** The CoffeeScript flag is never cleared: after any request, the entry of a URL
      once flagged is still flagged, unless a bundle replaced it by the marker. */
  lemma CoffeeFlagNeverCleared(fs: FileSystem, cache: CacheMap, opts: Options, tx: Transforms, req: Request)
    requires ValidOptions(opts)
    requires RequestUrl(req) in cache && cache[RequestUrl(req)].IsCoffee()
    ensures var e := Handle(fs, cache, opts, tx, req).cache[RequestUrl(req)];
      e.Marker? || e.IsCoffee()
  {
  }

  /** Because the flag sticks, once a URL was served from `<stem>.coffee`, a later
      `<stem>.js` with a new mtime still makes the middleware read the `.coffee`
      file, and throws when that file is gone, after recording the new mtime. */
  lemma StickyCoffeeFlagReadsCoffee(fs: FileSystem, cache: CacheMap, opts: Options, tx: Transforms, req: Request)
    requires ValidOptions(opts) && Resolves(cache, opts, req)
    requires var url := RequestUrl(req);
      && opts.src + url in fs
      && url in cache && cache[url].Record? && cache[url].coffee
      && cache[url].mtime != Some(fs[opts.src + url].mtime)
    ensures var url := RequestUrl(req);
      var coffee := opts.src + CoffeeUrl(url);
      var entry := cache[url].(mtime := Some(fs[opts.src + url].mtime));
      var r := Handle(fs, cache, opts, tx, req);
      && (ReadFile(fs, coffee).None? ==> r == Step(Throw(coffee), cache[url := entry]))
      && (ReadFile(fs, coffee).Some? ==>
            var out := MaybeMinify(opts, tx, url, tx.compile(ReadFile(fs, coffee).value));
            r == Step(Respond(200, JsContentType, Some(out)), cache[url := entry.(data := Some(out))]))
  {
  }

  /** A bundle URL whose directory was replaced by a `<stem>.coffee` file: the
      marker ignores the CoffeeScript flag, so the middleware reads `<src><url>`,
      which does not exist, and throws with the cache unchanged. */
  lemma MarkerThenCoffeeThrows(fs: FileSystem, cache: CacheMap, opts: Options, tx: Transforms, req: Request)
    requires ValidOptions(opts) && Resolves(cache, opts, req)
    requires RequestUrl(req) in cache && cache[RequestUrl(req)].Marker?
    requires opts.src + RequestUrl(req) !in fs && opts.src + CoffeeUrl(RequestUrl(req)) in fs
    ensures Handle(fs, cache, opts, tx, req) == Step(Throw(opts.src + RequestUrl(req)), cache)
  {
    var url := RequestUrl(req);
    assert cache[url := Marker] == cache;
  }

  // ---------------------------------------------------------------- two requests in a row

  /** In development mode a request that was answered is answered identically when
      repeated against the same filesystem, and leaves the cache as the first one
      left it. */
  lemma DevelopmentRepeatIsStable(fs: FileSystem, cache: CacheMap, opts: Options, tx: Transforms, req: Request)
    requires ValidOptions(opts) && !opts.isProduction && PlausibleMtimes(fs)
    requires Handle(fs, cache, opts, tx, req).outcome.Respond?
    ensures var first := Handle(fs, cache, opts, tx, req);
      Handle(fs, first.cache, opts, tx, req) == first
  {
    var url := RequestUrl(req);
    var first := Handle(fs, cache, opts, tx, req);
    if opts.src + url !in fs && opts.src + CoffeeUrl(url) !in fs {
      DirectoryBundled(fs, cache, opts, tx, req);
      DirectoryBundled(fs, first.cache, opts, tx, req);
      assert first.cache[url := Marker] == first.cache;
    } else if url in cache && cache[url].Marker? {
      assert first.cache == cache;
    }
  }

  /** In production the data of a bundle is never kept: the first request for a
      bundled URL is answered with the bundle, every later one with an undefined
      body, whatever the filesystem then holds. */
  lemma ProductionBundleLosesData(fs: FileSystem, fs2: FileSystem, cache: CacheMap, opts: Options,
                                  tx: Transforms, req: Request)
    requires ValidOptions(opts) && opts.isProduction && Accepts(req)
    requires RequestUrl(req) !in cache
    requires opts.src + RequestUrl(req) !in fs && opts.src + CoffeeUrl(RequestUrl(req)) !in fs
    requires Handle(fs, cache, opts, tx, req).outcome.Respond?
    ensures var first := Handle(fs, cache, opts, tx, req);
      && first.outcome.body.Some?
      && Handle(fs2, first.cache, opts, tx, req) == Step(Respond(200, JsContentType, None), first.cache)
  {
  }

  /** The same request twice against the same filesystem, when the first
      stored the bundle marker: development repeats the answer, production
      answers from the marker with an undefined body. */
  lemma RepeatAfterAnswer(fs: FileSystem, cache: CacheMap, opts: Options, tx: Transforms, req: Request)
    requires ValidOptions(opts) && PlausibleMtimes(fs) && Accepts(req)
    requires Handle(fs, cache, opts, tx, req).outcome.Respond?
    requires Handle(fs, cache, opts, tx, req).cache == cache[RequestUrl(req) := Marker]
    ensures var first := Handle(fs, cache, opts, tx, req);
      var second := Handle(fs, first.cache, opts, tx, req);
      && (!opts.isProduction ==> second == first)
      && (opts.isProduction ==> second == Step(Respond(200, JsContentType, None), first.cache))
  {
    var first := Handle(fs, cache, opts, tx, req);
    if !opts.isProduction {
      DevelopmentRepeatIsStable(fs, cache, opts, tx, req);
    } else {
      ProductionServesFromCache(fs, fs, first.cache, opts, tx, req);
    }
  }

  // ---------------------------------------------------------------- listing order

  lemma MembersChangedSame(fs1: FileSystem, fs2: FileSystem, cache: CacheMap, files: seq<string>)
    requires SameUpToOrder(fs1, fs2)
    ensures MembersChanged(fs1, cache, files) == MembersChanged(fs2, cache, files)
    decreases |files|
  {
    if |files| > 0 {
      var file := files[|files| - 1];
      if file in fs1 {
        assert SameNode(fs1[file], fs2[file]);
      }
      MembersChangedSame(fs1, fs2, cache, files[..|files| - 1]);
    }
  }

  lemma ConcatSame(fs1: FileSystem, fs2: FileSystem, compile: string -> string, files: seq<string>)
    requires SameUpToOrder(fs1, fs2)
    ensures Concat(fs1, compile, files) == Concat(fs2, compile, files)
    decreases |files|
  {
    if |files| > 0 {
      PieceSame(fs1, fs2, compile, files[0]);
      ConcatSame(fs1, fs2, compile, files[1..]);
    }
  }

  lemma PieceSame(fs1: FileSystem, fs2: FileSystem, compile: string -> string, file: string)
    requires SameUpToOrder(fs1, fs2)
    ensures Piece(fs1, compile, file) == Piece(fs2, compile, file)
  {
    ReadSame(fs1, fs2, file);
  }

  lemma ReadSame(fs1: FileSystem, fs2: FileSystem, path: string)
    requires SameUpToOrder(fs1, fs2)
    ensures Stat(fs1, path).Some? <==> Stat(fs2, path).Some?
    ensures Stat(fs1, path).Some? ==> Stat(fs1, path).value.mtime == Stat(fs2, path).value.mtime
    ensures Stat(fs1, path).Some? ==> (Stat(fs1, path).value.Dir? <==> Stat(fs2, path).value.Dir?)
    ensures ReadFile(fs1, path) == ReadFile(fs2, path)
  {
    if path in fs1 {
      assert SameNode(fs1[path], fs2[path]);
    }
  }

  lemma BundleSame(fs1: FileSystem, fs2: FileSystem, cache: CacheMap, opts: Options, tx: Transforms, url: string)
    requires SameUpToOrder(fs1, fs2) && EndsWith(url, ".js")
    ensures Bundle(fs1, cache, opts, tx, url) == Bundle(fs2, cache, opts, tx, url)
  {
    var dir := BundleDir(opts, url);
    ReadSame(fs1, fs2, dir);
    if dir in fs1 && fs1[dir].Dir? {
      var files := SortBy(GetFileList(fs1, dir));
      assert files == SortBy(GetFileList(fs2, dir)) by {
        ListingOrderIrrelevant(fs1, fs2, dir);
        SortIgnoresOrder(GetFileList(fs1, dir), GetFileList(fs2, dir));
      }
      MembersChangedSame(fs1, fs2, cache, files);
      ConcatSame(fs1, fs2, tx.compile, files);
    }
  }

  lemma RevalidateSame(fs1: FileSystem, fs2: FileSystem, cache: CacheMap, opts: Options, tx: Transforms,
                       url: string, mtime: string, viaCoffee: bool)
    requires SameUpToOrder(fs1, fs2)
    ensures Revalidate(fs1, cache, opts, tx, url, mtime, viaCoffee)
         == Revalidate(fs2, cache, opts, tx, url, mtime, viaCoffee)
  {
    ReadSame(fs1, fs2, opts.src + url);
    ReadSame(fs1, fs2, opts.src + CoffeeUrl(url));
  }

  /** The answer and the cache afterwards do not depend on the order in which
      directories list their entries, as long as no entry is hidden: bundle members
      are sorted by path before they are checked and concatenated. */
  lemma HandleIgnoresListingOrder(fs1: FileSystem, fs2: FileSystem, cache: CacheMap, opts: Options,
                                  tx: Transforms, req: Request)
    requires ValidOptions(opts) && SameUpToOrder(fs1, fs2)
    ensures Handle(fs1, cache, opts, tx, req) == Handle(fs2, cache, opts, tx, req)
  {
    var url := RequestUrl(req);
    if Resolves(cache, opts, req) {
      var js, coffee := opts.src + url, opts.src + CoffeeUrl(url);
      ReadSame(fs1, fs2, js);
      ReadSame(fs1, fs2, coffee);
      if js in fs1 {
        RevalidateSame(fs1, fs2, cache, opts, tx, url, fs1[js].mtime, false);
      } else if coffee in fs1 {
        RevalidateSame(fs1, fs2, cache, opts, tx, url, fs1[coffee].mtime, true);
      } else {
        BundleSame(fs1, fs2, cache, opts, tx, url);
      }
    }
  }
}

=== FILE: scenarios.dfy ===
/** Worked examples: a two-file directory bundled in development and production,
    requested twice, and which URLs escape minification. */
module Scenarios {
  import opened Optional
  import opened Strings
  import opened Sorting
  import opened Disk
  import opened Cache
  import opened Handler
  import opened Properties

  /** `src/app/` holds `b.js` and `a.js`, listed in that order. */
  function AppTree(): FileSystem {
    map[
      "src/app" := Dir("Sun Oct 11 2026 09:00:00", ["b.js", "a.js"]),
      "src/app/a.js" := File("Sun Oct 11 2026 09:00:01", "var a=1;"),
      "src/app/b.js" := File("Sun Oct 11 2026 09:00:02", "var b=2;")
    ]
  }

  lemma AppFiles()
    ensures GetFileList(AppTree(), "src/app") == ["src/app/a.js", "src/app/b.js"]
  {
    var fs := AppTree();
    assert Child("src/app", "a.js") == "src/app/a.js";
    assert Child("src/app", "b.js") == "src/app/b.js";
    assert Visit(fs, "src/app", "a.js") == ["src/app/a.js"];
    assert Visit(fs, "src/app", "b.js") == ["src/app/b.js"];
    assert ["b.js", "a.js"][..1] == ["b.js"];
    assert Collect(fs, "src/app", ["b.js"]) == ["src/app/b.js"];
  }

  lemma AppMember(compile: string -> string, file: string, text: string)
    requires file in AppTree() && AppTree()[file] == File(AppTree()[file].mtime, text)
    requires Substr(file, -3) == ".js"
    ensures Piece(AppTree(), compile, file) == Success(text + ";\n\n")
  {
  }

  lemma AppMembers(compile: string -> string)
    ensures Concat(AppTree(), compile, ["src/app/a.js", "src/app/b.js"]) == Success("var a=1;;\n\nvar b=2;;\n\n")
  {
    var fs := AppTree();
    var files := ["src/app/a.js", "src/app/b.js"];
    assert Substr("src/app/a.js", -3) == ".js";
    assert Substr("src/app/b.js", -3) == ".js";
    AppMember(compile, "src/app/a.js", "var a=1;");
    AppMember(compile, "src/app/b.js", "var b=2;");
    assert files[1..] == ["src/app/b.js"];
    assert files[1..][1..] == [];
    var tail := Concat(fs, compile, ["src/app/b.js"]);
    assert tail == Success("var b=2;" + ";\n\n" + "");
    assert "var a=1;" + ";\n\n" + ("var b=2;" + ";\n\n" + "") == "var a=1;;\n\nvar b=2;;\n\n";
  }

  lemma AppSorted()
    ensures SortBy(GetFileList(AppTree(), "src/app")) == ["src/app/a.js", "src/app/b.js"]
  {
    AppFiles();
    assert LexLe("a.js", "b.js");
    LexLeCommonPrefix("src/app/", "a.js", "b.js");
    assert "src/app/" + "a.js" == "src/app/a.js" && "src/app/" + "b.js" == "src/app/b.js";
    SortPair("src/app/a.js", "src/app/b.js");
  }

  lemma AppListing(fs: FileSystem, compile: string -> string)
    requires fs == AppTree()
    ensures "src/app" in fs && fs["src/app"].Dir?
    ensures |SortBy(GetFileList(fs, "src/app"))| == 2
    ensures Concat(fs, compile, SortBy(GetFileList(fs, "src/app"))) == Success("var a=1;;\n\nvar b=2;;\n\n")
  {
    var files := SortBy(GetFileList(fs, "src/app"));
    assert files == ["src/app/a.js", "src/app/b.js"] by {
      AppSorted();
    }
    AppMembers(compile);
  }

  lemma BundledAt(fs: FileSystem, cache: CacheMap, opts: Options, tx: Transforms, req: Request,
                  url: string, text: string)
    requires ValidOptions(opts) && Resolves(cache, opts, req) && PlausibleMtimes(fs)
    requires RequestUrl(req) == url && EndsWith(url, ".js") && !Minifies(opts, url)
    requires opts.src + url !in fs && opts.src + CoffeeUrl(url) !in fs
    requires BundleDir(opts, url) in fs && fs[BundleDir(opts, url)].Dir?
    requires |SortBy(GetFileList(fs, BundleDir(opts, url)))| > 0
    requires Concat(fs, tx.compile, SortBy(GetFileList(fs, BundleDir(opts, url)))) == Success(text)
    ensures Handle(fs, cache, opts, tx, req) == Step(Respond(200, JsContentType, Some(text)), cache[url := Marker])
  {
    DirectoryBundled(fs, cache, opts, tx, req);
  }

  /** `GET /app.js` passes the filter, and its `.coffee` alternative is
      `/app.coffee`. */
  lemma AppRequest(req: Request)
    requires req == Request("GET", None, "/app.js")
    ensures RequestUrl(req) == "/app.js" && Accepts(req) && CoffeeUrl("/app.js") == "/app.coffee"
  {
    assert RequestUrl(req) == "/app.js" by {
      assert '?' !in "/app.js";
      NoQuery("/app.js");
    }
    assert Substr("/app.js", -3) == ".js";
    assert "/app.js"[..4] == "/app";
    assert "/app" + ".coffee" == "/app.coffee";
  }

  /** With compression off `/app.js` is not minified, and its stem under `src`
      is `src/app`. */
  lemma AppStem(opts: Options)
    requires opts.src == "src" && !opts.compress
    ensures EndsWith("/app.js", ".js") && !Minifies(opts, "/app.js") && BundleDir(opts, "/app.js") == "src/app"
  {
    assert Substr("/app.js", -3) == ".js";
    assert "/app.js"[..4] == "/app";
  }

  /** Neither `src/app.js` nor `src/app.coffee` is in `AppTree`: every key there is
      7 or 12 characters long. */
  lemma AppMissing(fs: FileSystem)
    requires fs == AppTree()
    ensures "src" + "/app.js" !in fs && "src" + "/app.coffee" !in fs
  {
    assert forall k :: k in fs ==> |k| == 7 || |k| == 12;
    assert |"src" + "/app.js"| == 10 && |"src" + "/app.coffee"| == 14;
  }

  /** No mtime in `AppTree` reads as `true` or as an object. */
  lemma AppPlausible(fs: FileSystem)
    requires fs == AppTree()
    ensures PlausibleMtimes(fs)
  {
    forall p | p in fs
      ensures fs[p].mtime != "1" && fs[p].mtime != "[object Object]"
    {
      assert |fs[p].mtime| == 24;
    }
  }

  /** `GET /app.js` with compression off, on a cold cache, bundles `a.js` before
      `b.js`, each followed by `;` and a blank line, and caches the bare marker;
      this holds in development and in production alike. */
  lemma AppBundle(fs: FileSystem, opts: Options, tx: Transforms, req: Request)
    requires fs == AppTree() && opts.src == "src" && !opts.compress
    requires req == Request("GET", None, "/app.js")
    ensures Handle(fs, map[], opts, tx, req)
         == Step(Respond(200, JsContentType, Some("var a=1;;\n\nvar b=2;;\n\n")), map["/app.js" := Marker])
  {
    AppRequest(req);
    AppStem(opts);
    AppMissing(fs);
    AppPlausible(fs);
    AppListing(fs, tx.compile);
    BundledAt(fs, map[], opts, tx, req, "/app.js", "var a=1;;\n\nvar b=2;;\n\n");
  }

  /** Asking for `/app.js` a second time against an unchanged tree: development
      rebuilds the same bundle, production answers from the marker with an
      undefined body. */
  lemma AppRepeat(fs: FileSystem, opts: Options, tx: Transforms, req: Request)
    requires fs == AppTree() && opts.src == "src" && !opts.compress
    requires req == Request("GET", None, "/app.js")
    ensures var first := Handle(fs, map[], opts, tx, req);
      var second := Handle(fs, first.cache, opts, tx, req);
      && (!opts.isProduction ==> second == first)
      && (opts.isProduction ==> second == Step(Respond(200, JsContentType, None), first.cache))
  {
    AppRequest(req);
    AppStem(opts);
    AppMissing(fs);
    AppPlausible(fs);
    AppBundle(fs, opts, tx, req);
    RepeatAfterAnswer(fs, map[], opts, tx, req);
  }

  /** With compression on, `/app.js` is minified and `/lib.min.js` is not;
      with compression off nothing is. */
  lemma MinifyChoices()
    ensures Minifies(Options("src", true, true), "/app.js")
    ensures !Minifies(Options("src", true, true), "/lib.min.js")
    ensures !Minifies(Options("src", true, false), "/app.js")
  {
    assert !EndsWith("/app.js", "min.js") by {
      assert "/app.js"[1..] != "min.js";
    }
    assert "/lib.min.js"[5..] == "min.js";
  }
}

=== FILE: sorting.dfy ===
/** Underscore's `_.sortBy(list, identity)` on strings: JavaScript compares strings
    character by character, and a proper prefix sorts first. */
module Sorting {

  /** JavaScript's `a <= b` on strings. */
  predicate LexLe(a: string, b: string) {
    |a| == 0 || (|b| > 0 && (a[0] < b[0] || (a[0] == b[0] && LexLe(a[1..], b[1..]))))
  }

  lemma {:induction false} LexLeReflexive(a: string)
    ensures LexLe(a, a)
    decreases |a|
  {
    if |a| > 0 {
      LexLeReflexive(a[1..]);
    }
  }

  lemma {:induction false} LexLeTotal(a: string, b: string)
    ensures LexLe(a, b) || LexLe(b, a)
    decreases |a|
  {
    if |a| > 0 && |b| > 0 && a[0] == b[0] {
      LexLeTotal(a[1..], b[1..]);
    }
  }

  lemma {:induction false} LexLeAntisymmetric(a: string, b: string)
    requires LexLe(a, b) && LexLe(b, a)
    ensures a == b
    decreases |a|
  {
    if |a| > 0 && |b| > 0 {
      LexLeAntisymmetric(a[1..], b[1..]);
      assert a == [a[0]] + a[1..] && b == [b[0]] + b[1..];
    }
  }

  lemma {:induction false} LexLeTransitive(a: string, b: string, c: string)
    requires LexLe(a, b) && LexLe(b, c)
    ensures LexLe(a, c)
    decreases |a|
  {
    if |a| > 0 && a[0] == b[0] && b[0] == c[0] {
      LexLeTransitive(a[1..], b[1..], c[1..]);
    }
  }

  /** A shared prefix does not change how two strings compare. */
  lemma {:induction false} LexLeCommonPrefix(p: string, a: string, b: string)
    requires LexLe(a, b)
    ensures LexLe(p + a, p + b)
    decreases |p|
  {
    if |p| == 0 {
      assert p + a == a && p + b == b;
    } else {
      LexLeCommonPrefix(p[1..], a, b);
      assert (p + a)[0] == p[0] == (p + b)[0];
      assert (p + a)[1..] == p[1..] + a && (p + b)[1..] == p[1..] + b;
    }
  }

  ghost predicate Sorted(s: seq<string>) {
    forall i, j :: 0 <= i < j < |s| ==> LexLe(s[i], s[j])
  }

  /** A lower bound of the first element of a sorted sequence bounds all of it. */
  lemma BelowFirst(x: string, s: seq<string>)
    requires Sorted(s) && |s| > 0 && LexLe(x, s[0])
    ensures forall j :: 0 <= j < |s| ==> LexLe(x, s[j])
  {
    forall j | 0 < j < |s|
      ensures LexLe(x, s[j])
    {
      LexLeTransitive(x, s[0], s[j]);
    }
  }

  /** Anything that bounds every element of a multiset bounds every element of a
      sequence with that multiset. */
  lemma BelowAll(x: string, r: seq<string>, s: seq<string>, y: string)
    requires multiset(r) == multiset(s) + multiset{y}
    requires LexLe(x, y)
    requires forall j :: 0 <= j < |s| ==> LexLe(x, s[j])
    ensures forall j :: 0 <= j < |r| ==> LexLe(x, r[j])
  {
    forall j | 0 <= j < |r|
      ensures LexLe(x, r[j])
    {
      assert r[j] in multiset(r);
      if r[j] != y {
        assert r[j] in multiset(s);
        var k :| 0 <= k < |s| && s[k] == r[j];
      }
    }
  }

  /** Inserts `x` into a sorted sequence, keeping it sorted. */
  function Insert(x: string, s: seq<string>): (r: seq<string>)
    requires Sorted(s)
    ensures Sorted(r)
    ensures multiset(r) == multiset(s) + multiset{x}
    decreases |s|
  {
    if |s| == 0 then [x]
    else if LexLe(x, s[0]) then
      BelowFirst(x, s);
      [x] + s
    else
      var tail := Insert(x, s[1..]);
      LexLeTotal(x, s[0]);
      BelowAll(s[0], tail, s[1..], x);
      assert s == [s[0]] + s[1..];
      [s[0]] + tail
  }

  /** `_.sortBy(list, function(name){return name})`. */
  function SortBy(s: seq<string>): (r: seq<string>)
    ensures Sorted(r)
    ensures multiset(r) == multiset(s)
    decreases |s|
  {
    if |s| == 0 then []
    else
      assert s == [s[0]] + s[1..];
      Insert(s[0], SortBy(s[1..]))
  }

  /** The first element of a non-empty sorted sequence is below every element. */
  lemma FirstIsLeast(a: seq<string>, x: string)
    requires Sorted(a) && x in a
    ensures LexLe(a[0], x)
  {
    var i :| 0 <= i < |a| && a[i] == x;
    if i == 0 { LexLeReflexive(x); }
  }

  /** Removing the same first element from two sequences with one multiset leaves
      tails with one multiset. */
  lemma TailsAgree(a: seq<string>, b: seq<string>)
    requires |a| > 0 && |b| > 0 && a[0] == b[0]
    requires multiset(a) == multiset(b)
    ensures multiset(a[1..]) == multiset(b[1..])
  {
    assert a == [a[0]] + a[1..];
    assert b == [b[0]] + b[1..];
    assert multiset(a) == multiset{a[0]} + multiset(a[1..]);
    assert multiset(b) == multiset{a[0]} + multiset(b[1..]);
    forall x
      ensures multiset(a[1..])[x] == multiset(b[1..])[x]
    {
      assert multiset(a)[x] == multiset{a[0]}[x] + multiset(a[1..])[x];
      assert multiset(b)[x] == multiset{a[0]}[x] + multiset(b[1..])[x];
    }
  }

  /** There is only one sorted arrangement of a multiset of strings. */
  lemma {:induction false} SortedUnique(a: seq<string>, b: seq<string>)
    requires Sorted(a) && Sorted(b)
    requires multiset(a) == multiset(b)
    ensures a == b
    decreases |a|
  {
    assert |a| == |multiset(a)| == |multiset(b)| == |b|;
    if |a| > 0 {
      assert a[0] in multiset(b) && b[0] in multiset(a);
      FirstIsLeast(a, b[0]);
      FirstIsLeast(b, a[0]);
      LexLeAntisymmetric(a[0], b[0]);
      TailsAgree(a, b);
      SortedUnique(a[1..], b[1..]);
      assert a == [a[0]] + a[1..] && b == [b[0]] + b[1..];
    }
  }

  /** The sorted list depends only on which strings were listed, not on the order
      they were listed in. */
  lemma SortIgnoresOrder(a: seq<string>, b: seq<string>)
    requires multiset(a) == multiset(b)
    ensures SortBy(a) == SortBy(b)
  {
    SortedUnique(SortBy(a), SortBy(b));
  }

  /** Two strings already in order are left in that order. */
  lemma SortPair(x: string, y: string)
    requires LexLe(x, y)
    ensures SortBy([x, y]) == [x, y]
  {
    assert Sorted([x, y]);
    SortedUnique(SortBy([x, y]), [x, y]);
  }
}

=== FILE: strings.dfy ===
/** The JavaScript string operations the middleware relies on, over `seq<char>`. */
module Strings {

  predicate StartsWith(s: string, prefix: string) {
    |prefix| <= |s| && s[..|prefix|] == prefix
  }

  predicate EndsWith(s: string, suffix: string) {
    |suffix| <= |s| && s[|s| - |suffix|..] == suffix
  }

  /** `s.substr(start)` with one argument: a negative `start` counts back from the
      end and is clamped at the beginning; a `start` past the end gives "". */
  function Substr(s: string, start: int): (r: string)
    ensures |r| <= |s| && r == s[|s| - |r|..]
    ensures start < 0 ==> |r| == (if -start < |s| then -start else |s|)
    ensures 0 <= start <= |s| ==> |r| == |s| - start
    ensures start > |s| ==> r == ""
  {
    if start < 0 then
      (if |s| + start < 0 then s else s[|s| + start..])
    else if start <= |s| then s[start..]
    else ""
  }

  /** Both suffix tests the source writes with `substr` (`substr(-3) == '.js'` and
      `substr(length - 6) == 'min.js'`) are exactly "ends with". */
  lemma SubstrSuffixTest(s: string, t: string)
    requires |t| > 0
    ensures Substr(s, -|t|) == t <==> EndsWith(s, t)
    ensures Substr(s, |s| - |t|) == t <==> EndsWith(s, t)
  {
  }

  /** `parts.join(sep)`. */
  function Join(parts: seq<string>, sep: char): string
    requires |parts| > 0
    decreases |parts|
  {
    if |parts| == 1 then parts[0] else parts[0] + [sep] + Join(parts[1..], sep)
  }

  /** `s.split(sep)` for a one-character separator: never empty, and no piece
      contains the separator. */
  function Split(s: string, sep: char): (parts: seq<string>)
    ensures |parts| > 0
    ensures forall i :: 0 <= i < |parts| ==> sep !in parts[i]
    decreases |s|
  {
    if |s| == 0 then [""]
    else
      var rest := Split(s[1..], sep);
      if s[0] == sep then [""] + rest
      else [[s[0]] + rest[0]] + rest[1..]
  }

  /** Joining the pieces of a split gives the original string back. */
  lemma {:induction false} JoinSplit(s: string, sep: char)
    ensures Join(Split(s, sep), sep) == s
    decreases |s|
  {
    if |s| > 0 {
      var rest := Split(s[1..], sep);
      JoinSplit(s[1..], sep);
      if s[0] == sep {
        assert ([""] + rest)[1..] == rest;
      } else {
        var parts := [[s[0]] + rest[0]] + rest[1..];
        if |rest| > 1 {
          assert parts[1..] == rest[1..];
          assert Join(rest, sep) == rest[0] + [sep] + Join(rest[1..], sep);
        }
        assert s == [s[0]] + s[1..];
      }
    }
  }

  /** Splitting a string that starts with a separator-free piece followed by the
      separator peels that piece off. */
  lemma {:induction false} SplitAfterPiece(a: string, sep: char, b: string)
    requires sep !in a
    ensures Split(a + [sep] + b, sep) == [a] + Split(b, sep)
    decreases |a|
  {
    var s := a + [sep] + b;
    if |a| == 0 {
      assert s[1..] == b;
    } else {
      assert s[1..] == a[1..] + [sep] + b;
      SplitAfterPiece(a[1..], sep, b);
      assert [a[0]] + a[1..] == a;
    }
  }

  /** A separator-free string splits into itself alone. */
  lemma {:induction false} SplitPiece(a: string, sep: char)
    requires sep !in a
    ensures Split(a, sep) == [a]
    decreases |a|
  {
    if |a| > 0 {
      SplitPiece(a[1..], sep);
      assert [a[0]] + a[1..] == a;
    }
  }

  /** Splitting a join of separator-free pieces gives the pieces back. */
  lemma {:induction false} SplitJoin(parts: seq<string>, sep: char)
    requires |parts| > 0
    requires forall i :: 0 <= i < |parts| ==> sep !in parts[i]
    ensures Split(Join(parts, sep), sep) == parts
    decreases |parts|
  {
    if |parts| == 1 {
      SplitPiece(parts[0], sep);
    } else {
      SplitJoin(parts[1..], sep);
      SplitAfterPiece(parts[0], sep, Join(parts[1..], sep));
      assert [parts[0]] + parts[1..] == parts;
    }
  }

  /** `url.split('?')[0]`: the part of the URL before its first `?`. */
  function BeforeQuery(url: string): (r: string)
    ensures r <= url
    ensures '?' !in r
    ensures |r| < |url| ==> url[|r|] == '?'
  {
    JoinSplit(url, '?');
    var parts := Split(url, '?');
    assert |parts| > 1 ==> url == parts[0] + ['?'] + Join(parts[1..], '?');
    parts[0]
  }

  /** A URL is kept whole exactly when it has no `?`. */
  lemma NoQuery(url: string)
    ensures BeforeQuery(url) == url <==> '?' !in url
  {
    var r := BeforeQuery(url);
    if |r| < |url| {
      assert url[|r|] == '?';
      assert '?' in url;
    }
  }

  /** `url.replace(/\.js$/, '.coffee')`: a trailing `.js` becomes `.coffee`; any
      other string is left alone. */
  function CoffeeUrl(url: string): (r: string)
    ensures EndsWith(url, ".js") ==> EndsWith(r, ".coffee") && r[..|r| - 7] == url[..|url| - 3]
    ensures !EndsWith(url, ".js") ==> r == url
  {
    if EndsWith(url, ".js") then url[..|url| - 3] + ".coffee" else url
  }
}

=== FILE: walk.dfy ===
/** What the directory walk `getFileList` (getsmart.js lines 196-225) does and
    does not depend on. */
module Walk {
  import opened Strings
  import opened Disk

  ghost predicate NoneHidden(names: seq<string>) {
    forall i :: 0 <= i < |names| ==> !Hidden(names[i])
  }

  /** The loop runs from the last name down and stops at the first hidden name it
      meets, so nothing listed before a hidden name is ever looked at. */
  lemma {:induction false} HiddenCutsOff(fs: FileSystem, path: string, names: seq<string>, k: nat)
    requires path in fs
    requires k < |names| && Hidden(names[k])
    ensures Collect(fs, path, names) == Collect(fs, path, names[k + 1..])
    decreases |names|
  {
    var n := |names|;
    if k < n - 1 && !Hidden(names[n - 1]) {
      HiddenCutsOff(fs, path, names[..n - 1], k);
      assert names[..n - 1][k + 1..] == names[k + 1..][..n - 1 - (k + 1)];
      assert names[k + 1..][n - 1 - (k + 1)] == names[n - 1];
    } else if k < n - 1 {
      assert names[k + 1..][n - 1 - (k + 1)] == names[n - 1];
    }
  }

  /** With no hidden names after the cut, the names listed later are walked first. */
  lemma {:induction false} CollectAppend(fs: FileSystem, path: string, a: seq<string>, b: seq<string>)
    requires path in fs && NoneHidden(b)
    ensures Collect(fs, path, a + b) == Collect(fs, path, b) + Collect(fs, path, a)
    decreases |b|
  {
    if |b| == 0 {
      assert a + b == a;
    } else {
      var m := |b|;
      assert (a + b)[..|a + b| - 1] == a + b[..m - 1];
      assert (a + b)[|a + b| - 1] == b[m - 1];
      CollectAppend(fs, path, a, b[..m - 1]);
    }
  }

  /** An entry whose path cannot be stat'ed is skipped as if it were not listed. */
  lemma {:induction false} SkipsUnstatable(fs: FileSystem, path: string, names: seq<string>, k: nat)
    requires path in fs
    requires k < |names| && !Hidden(names[k]) && Child(path, names[k]) !in fs
    ensures Collect(fs, path, names) == Collect(fs, path, names[..k] + names[k + 1..])
    decreases |names|
  {
    var n := |names|;
    if k == n - 1 {
      assert names[..k] + names[k + 1..] == names[..n - 1];
    } else {
      var shorter := names[..k] + names[k + 1..];
      assert shorter[|shorter| - 1] == names[n - 1];
      if !Hidden(names[n - 1]) {
        SkipsUnstatable(fs, path, names[..n - 1], k);
        assert shorter[..|shorter| - 1] == names[..n - 1][..k] + names[..n - 1][k + 1..];
      }
    }
  }

  /** Everything under a name at or after which no hidden name is listed is found. */
  lemma {:induction false} FindsVisible(fs: FileSystem, path: string, names: seq<string>, k: nat)
    requires path in fs
    requires k < |names|
    requires forall j :: k <= j < |names| ==> !Hidden(names[j])
    ensures forall f :: f in Visit(fs, path, names[k]) ==> f in Collect(fs, path, names)
    decreases |names|
  {
    var n := |names|;
    if k < n - 1 {
      FindsVisible(fs, path, names[..n - 1], k);
    }
  }

  /** A non-directory entry of a directory is reported by the walk, provided no
      hidden name follows it in the listing. */
  lemma ListsVisibleFile(fs: FileSystem, path: string, k: nat)
    requires path in fs && fs[path].Dir?
    requires k < |fs[path].entries|
    requires forall j :: k <= j < |fs[path].entries| ==> !Hidden(fs[path].entries[j])
    requires Child(path, fs[path].entries[k]) in fs && fs[Child(path, fs[path].entries[k])].File?
    ensures Child(path, fs[path].entries[k]) in GetFileList(fs, path)
  {
    FindsVisible(fs, path, fs[path].entries, k);
  }

  /** The walk of a subdirectory is part of the walk of its parent, provided no
      hidden name follows it in the parent's listing. */
  lemma ListsSubdirectory(fs: FileSystem, path: string, k: nat)
    requires path in fs && fs[path].Dir?
    requires k < |fs[path].entries|
    requires forall j :: k <= j < |fs[path].entries| ==> !Hidden(fs[path].entries[j])
    requires Child(path, fs[path].entries[k]) in fs && fs[Child(path, fs[path].entries[k])].Dir?
    ensures forall f :: f in GetFileList(fs, Child(path, fs[path].entries[k])) ==> f in GetFileList(fs, path)
  {
    FindsVisible(fs, path, fs[path].entries, k);
  }

  /** One pass of the loop for the last name still to visit: a hidden name ends
      the walk; otherwise the name adds nothing when it cannot be stat'ed, itself
      once when it is a file, and the subdirectory's walk when it is a directory,
      ahead of what the earlier names add. */
  lemma LastEntry(fs: FileSystem, path: string, names: seq<string>, x: string)
    requires path in fs
    ensures Hidden(x) ==> Collect(fs, path, names + [x]) == []
    ensures !Hidden(x) && Child(path, x) !in fs ==> Collect(fs, path, names + [x]) == Collect(fs, path, names)
    ensures !Hidden(x) && Child(path, x) in fs && fs[Child(path, x)].File? ==>
      Collect(fs, path, names + [x]) == [Child(path, x)] + Collect(fs, path, names)
    ensures !Hidden(x) && Child(path, x) in fs && fs[Child(path, x)].Dir? ==>
      Collect(fs, path, names + [x]) == GetFileList(fs, Child(path, x)) + Collect(fs, path, names)
  {
    var all := names + [x];
    assert all[|all| - 1] == x;
    assert all[..|all| - 1] == names;
  }

  /** A listing of visible files only is reported one path per name, each exactly
      once, in reverse listing order. */
  lemma {:induction false} FlatListing(fs: FileSystem, path: string, names: seq<string>)
    requires path in fs
    requires forall i :: 0 <= i < |names| ==>
      !Hidden(names[i]) && Child(path, names[i]) in fs && fs[Child(path, names[i])].File?
    ensures |Collect(fs, path, names)| == |names|
    ensures forall i :: 0 <= i < |names| ==> Collect(fs, path, names)[i] == Child(path, names[|names| - 1 - i])
    decreases |names|
  {
    var n := |names|;
    if n > 0 {
      var rest := names[..n - 1];
      assert rest + [names[n - 1]] == names;
      LastEntry(fs, path, rest, names[n - 1]);
      FlatListing(fs, path, rest);
    }
  }

  lemma Cancel<T>(p: multiset<T>, q: multiset<T>, x: T)
    requires p + multiset{x} == q + multiset{x}
    ensures p == q
  {
    forall y
      ensures p[y] == q[y]
    {
      assert (p + multiset{x})[y] == (q + multiset{x})[y];
    }
  }

  lemma RemoveMatching(a: seq<string>, b: seq<string>, j: nat)
    requires |a| > 0 && j < |b| && b[j] == a[|a| - 1]
    requires multiset(a) == multiset(b)
    ensures multiset(a[..|a| - 1]) == multiset(b[..j] + b[j + 1..])
  {
    var x := b[j];
    assert a == a[..|a| - 1] + [x];
    assert b == b[..j] + [x] + b[j + 1..];
    assert multiset(b) == multiset(b[..j]) + multiset{x} + multiset(b[j + 1..]);
    assert multiset(b[..j] + b[j + 1..]) == multiset(b[..j]) + multiset(b[j + 1..]);
    Cancel(multiset(a[..|a| - 1]), multiset(b[..j] + b[j + 1..]), x);
  }

  lemma NoneHiddenTransfer(a: seq<string>, b: seq<string>)
    requires NoneHidden(a) && multiset(a) == multiset(b)
    ensures NoneHidden(b)
  {
    forall i | 0 <= i < |b|
      ensures !Hidden(b[i])
    {
      assert b[i] in multiset(a);
    }
  }

  lemma NoneHiddenParts(b: seq<string>, j: nat)
    requires NoneHidden(b) && j < |b|
    ensures NoneHidden(b[j + 1..]) && NoneHidden([b[j]] + b[j + 1..]) && !Hidden(b[j])
    ensures b[..j] + ([b[j]] + b[j + 1..]) == b
  {
    assert [b[j]] + b[j + 1..] == b[j..];
  }

  lemma CollectSingle(fs: FileSystem, path: string, x: string)
    requires path in fs && !Hidden(x)
    ensures Collect(fs, path, [x]) == Visit(fs, path, x)
  {
    assert [x][..0] == [];
  }

  /** Taking one name out of a listing without hidden names takes exactly its own
      contribution out of the walk. */
  lemma CollectWithout(fs: FileSystem, path: string, b: seq<string>, j: nat)
    requires path in fs && NoneHidden(b) && j < |b|
    ensures multiset(Collect(fs, path, b))
         == multiset(Visit(fs, path, b[j])) + multiset(Collect(fs, path, b[..j] + b[j + 1..]))
  {
    var x, left, right := b[j], b[..j], b[j + 1..];
    NoneHiddenParts(b, j);
    CollectAppend(fs, path, left, [x] + right);
    CollectAppend(fs, path, [x], right);
    CollectAppend(fs, path, left, right);
    CollectSingle(fs, path, x);
    var v, l, r := Visit(fs, path, x), Collect(fs, path, left), Collect(fs, path, right);
    assert Collect(fs, path, b) == r + v + l;
    assert Collect(fs, path, left + right) == r + l;
    assert multiset(r + v + l) == multiset(v) + multiset(r + l);
  }

  /** Without hidden names, the walk finds the same paths, with the same
      multiplicities, whatever order the names are listed in. */
  lemma {:induction false} CollectPermutation(fs: FileSystem, path: string, a: seq<string>, b: seq<string>)
    requires path in fs && NoneHidden(a)
    requires multiset(a) == multiset(b)
    ensures multiset(Collect(fs, path, a)) == multiset(Collect(fs, path, b))
    decreases |a|
  {
    if |a| == 0 {
      assert |b| == |multiset(b)| == 0;
    } else {
      var n := |a|;
      var x := a[n - 1];
      assert x in multiset(b);
      var j :| 0 <= j < |b| && b[j] == x;
      RemoveMatching(a, b, j);
      NoneHiddenTransfer(a, b);
      CollectPermutation(fs, path, a[..n - 1], b[..j] + b[j + 1..]);
      CollectWithout(fs, path, b, j);
    }
  }

  /** Two filesystems that differ only in the order directories list their
      entries, where no entry anywhere is hidden. */
  ghost predicate SameUpToOrder(fs1: FileSystem, fs2: FileSystem) {
    && fs1.Keys == fs2.Keys
    && forall p :: p in fs1 ==> SameNode(fs1[p], fs2[p])
  }

  ghost predicate SameNode(a: Node, b: Node) {
    match a
    case File(_, _) => a == b
    case Dir(m, e) => b.Dir? && b.mtime == m && multiset(b.entries) == multiset(e) && NoneHidden(e)
  }

  /** The walk of a directory finds the same files whatever order each directory
      lists its (non-hidden) entries in. */
  lemma {:induction false} ListingOrderIrrelevant(fs1: FileSystem, fs2: FileSystem, path: string)
    requires SameUpToOrder(fs1, fs2)
    requires path in fs1 && fs1[path].Dir?
    ensures path in fs2 && fs2[path].Dir?
    ensures multiset(GetFileList(fs1, path)) == multiset(GetFileList(fs2, path))
    decreases |PathsFrom(fs1, |path|)|, 2
  {
    assert SameNode(fs1[path], fs2[path]);
    var e1 := fs1[path].entries;
    CollectSameTree(fs1, fs2, path, e1);
    CollectPermutation(fs2, path, e1, fs2[path].entries);
  }

  lemma {:induction false} CollectSameTree(fs1: FileSystem, fs2: FileSystem, path: string, names: seq<string>)
    requires SameUpToOrder(fs1, fs2) && path in fs1
    ensures path in fs2
    ensures multiset(Collect(fs1, path, names)) == multiset(Collect(fs2, path, names))
    decreases |PathsFrom(fs1, |path|)|, 1, |names|
  {
    if |names| > 0 && !Hidden(names[|names| - 1]) {
      VisitSameTree(fs1, fs2, path, names[|names| - 1]);
      CollectSameTree(fs1, fs2, path, names[..|names| - 1]);
    }
  }

  lemma {:induction false} VisitSameTree(fs1: FileSystem, fs2: FileSystem, path: string, name: string)
    requires SameUpToOrder(fs1, fs2) && path in fs1
    ensures path in fs2
    ensures multiset(Visit(fs1, path, name)) == multiset(Visit(fs2, path, name))
    decreases |PathsFrom(fs1, |path|)|, 0
  {
    var item := Child(path, name);
    if item in fs1 {
      assert SameNode(fs1[item], fs2[item]);
      if fs1[item].Dir? {
        DescentShrinks(fs1, path, item);
        ListingOrderIrrelevant(fs1, fs2, item);
      }
    }
  }
}
